=== FILE: README.md ===
# Gmail inbox viewer: a Dafny model of `GmailApp`

The repository ships one tkinter Gmail client, `GmailApp`, in three variants:

- `automation/auto.py` recovers from most failures and sends a welcome email after a fresh consent.
- `test.py` is strict and adds a compose-and-send action.
- `index.py` is the strict client with the read-only scope.

This project models the logic beneath their windows:

- authenticate: the credential decision between the stored token, a refresh and the consent flow, then saving, building the service and testing it;
- fetch_emails: rebuilding the inbox table from the listed messages;
- show_email_content: choosing the body of a message;
- building the outgoing messages of send_welcome_email and send_email.

Calls into Google's libraries, tkinter and the file system are replaced by their outcomes, which are passed in as inputs:

- `Gmail` holds what list, get and send answer.
- `AuthEnv` holds whether credentials.json exists, what refresh and consent return, whether saving, building and the profile requests succeed, and the profile address. A single `buildOk` outcome answers both build calls on auto.py's consent path (automation/auto.py:113 and 147).
- `DateFormatter` stands for date parsing followed by strftime.
- `Decoder` stands for base64url decoding followed by utf-8 decoding.

An application's state is an `AppState`: the token file, the service, the inbox table and the trace of what it did. The trace records the dialogs shown, the content window, `root.quit()` and any exception that escapes. Of the calls that leave the program it records creds.refresh, the start of the consent flow, the two getProfile requests of auto.py (the address lookup and the connection test) and users.messages.send. The list and get requests are not recorded: their answers come from the `Gmail` input.

Files:

- `mail_core.dfy` (module `MailCore`): shared values, the table insert, the header lookup and the body selection.
- `compose.dfy` (module `Compose`): the two outgoing messages.
- `snapshot.dfy` (module `Snapshot`): the lenient fetch loop of auto.py and the strict loop of test.py and index.py.
- `credentials.dfy` (module `Credentials`): the two credential decisions.
- `strict_session.dfy` (module `StrictSession`): authenticate of test.py and index.py.
- `auto_app.dfy`, `test_app.dfy`, `index_app.dfy`: each holds the `GmailApp` class of one variant. Its methods update the fields `token`, `service`, `rows` and `events`, and each is proved against the functions above.

Facts about the code that the model keeps:

- Header names are compared exactly, so a lower-case "subject" header is not found by the lookup for "Subject".
- The body is decoded as strict utf-8, so a bad byte sends the viewer to its error box.
- send_email does not trim its fields, so fields holding only whitespace are accepted.
- A multipart message without a `text/plain` direct child shows an empty body.

## Model

| member | source | states |
|---|---|---|
| MailCore.Loaded | automation/auto.py:72-81 | a credential is loaded exactly when token.pickle holds one; a missing or unreadable file gives none |
| MailCore.Insert | automation/auto.py:264 | a row is inserted exactly when its iid is not yet in the table; it goes last; unique iids stay unique |
| MailCore.Lookup | automation/auto.py:253-255 | the value of the first header whose name equals the given name exactly; None exactly when no header has that name |
| MailCore.StrictRow | test.py:106-113 | a row exists exactly when Subject, From and Date are present and the date formats; it then equals the row auto.py would build |
| MailCore.LookupOr | automation/auto.py:253-255 | the value of the first header named exactly as asked, or the fallback when no header has that name |
| MailCore.DateColumn | automation/auto.py:258-262 | the formatted date when the value can be formatted, and "Invalid Date" otherwise |
| MailCore.LenientRow | automation/auto.py:252-264 | the row carries the message id; From and Subject are each a value of a header with exactly that name or the fallback; the date is "Invalid Date" or the formatting of a Date header or of the placeholder |
| MailCore.LenientRowColumns | automation/auto.py:253-262 | each column is the first matching header or its fallback; the date is "Invalid Date" whenever it cannot be formatted, a missing Date header included |
| MailCore.LookupIsCaseSensitive | automation/auto.py:253 | for any headers, a lower-case "subject" header changes neither the lookup for "Subject" nor the Subject column, though the lookup for "subject" finds it |
| MailCore.FirstEligible | automation/auto.py:286-292 | the index of the first direct child that is exactly text/plain and has data; None exactly when there is none |
| MailCore.BodyOf | automation/auto.py:283-299 | for a multipart payload the body is "" when no direct child is text/plain with data, and otherwise the decoding of the FIRST such child; a payload without parts shows its own data decoded, or "No text content available" |
| MailCore.ExtractBody | automation/auto.py:283-299 | the loop stops at the first text/plain child with data and yields its decoded text; otherwise "" for a multipart payload, the payload's own data, or "No text content available" |
| MailCore.SoleEligibleChosen | test.py:132-141 | with one eligible child, the body is that child's text, wherever the child stands |
| MailCore.IneligibleSiblingIrrelevant | index.py:128-134 | inserting a child that is not text/plain-with-data anywhere does not change which child is chosen |
| MailCore.ContentEvent | automation/auto.py:276-315 | without a service or with a failing get, the error box; for a multipart message, the first direct child that is text/plain with data is shown decoded, or the error box when decoding fails, and "" when no child qualifies; a message without parts shows its own data decoded, or "No text content available" |
| Compose.WelcomeEvents | automation/auto.py:210-228 | exactly one send call, of a message whose to and from are both the user's address, then the success notice naming the address exactly when the call returns, else the error box; no exception escapes and the application is not closed |
| Compose.WelcomeMessage | automation/auto.py:181-207 | the welcome message has to = from = the user's address, the fixed subject, and one html part |
| Compose.ComposeMessage | test.py:204-210 | the message has To = the entered address, From = 'me', Subject = the entered subject, and one plain part holding the body |
| Compose.SendOutcome | test.py:193-221 | send_email only appends to the trace and never raises out of the handler; token, service and table stay; the success notice appears exactly when every field is non-empty, a service exists and the send call returns |
| Compose.SendEmailEffects | test.py:198-221 | an empty field gives the "all fields required" box and nothing is sent; otherwise the only message submitted is the one composed from the fields; token, service and table unchanged |
| Compose.WhitespaceFieldsAccepted | test.py:198 | any non-empty fields made only of blanks, tabs and line breaks are not rejected |
| Compose.EmptyBodyAcceptedAsWritten | test.py:196-198 | with the body read as written, the emptiness check never rejects the body, whatever was typed, an empty body included |
| Compose.EmptyBodySentAsWritten | test.py:193-221 | with the body read as written, an empty body with To, Subject and a working service sends a message whose body is "\n" and reports success |
| Compose.EmptyBodyRejected | test.py:196-198 | with the corrected read, the check rejects exactly an empty To, Subject or body, and the plain part is exactly the typed text |
| Compose.SentMessageReadsBack | test.py:204-217 | a message built by send_email, read back by the body viewer, shows the body string it was composed with and carries the entered Subject and To |
| Compose.TypedBodyReadsBackWithNewline | test.py:196-217 | as written, the viewer shows the typed text followed by a newline, never the typed text alone |
| Compose.WelcomeReadsBackEmpty | automation/auto.py:206-207 | the welcome message has no text/plain part, so the viewer shows it with an empty body |
| Snapshot.LenientStep | automation/auto.py:247-266 | a message whose get raises, or whose iid is already shown, leaves the table as it was; otherwise its row goes last and nothing before it changes |
| Snapshot.LenientRows | automation/auto.py:247-266 | every row of the rebuilt table belongs to a listed message whose get succeeded |
| Snapshot.LenientRowsUnique | automation/auto.py:247-266 | the table rebuilt by auto.py never holds an iid twice |
| Snapshot.LenientRowsExactly | automation/auto.py:247-266 | the table has a row for an id exactly when the id was listed and its get succeeded |
| Snapshot.LenientRowsInListOrder | automation/auto.py:247-264 | for distinct listed ids, the table is one row per successfully fetched message, in list order |
| Snapshot.LenientRowsAtMost | automation/auto.py:237-247 | the table never has more rows than messages listed |
| Snapshot.StrictMessageRow | test.py:101-113 | a message's row, when it can be built, carries that message's id |
| Snapshot.StrictStep | test.py:100-117 | a turn succeeds exactly when the message yields a row and its iid is not yet shown; the row then goes last with that iid and the earlier rows stay |
| Snapshot.StrictRows | test.py:100-121 | never more rows than listed messages, and fewer when the loop was cut short |
| Snapshot.StrictAbortIsFinal | test.py:100-121 | once a message raises, later messages change nothing |
| Snapshot.StrictRowsArePrefix | index.py:94-114 | the table holds the rows of the first listed messages, in order, up to the first failure; it is cut short exactly when some message failed |
| Snapshot.FollowsIdsAppend | test.py:100-117 | appending the row of the next listed message keeps each row paired with its listed id |
| Snapshot.StrictRowsUnique | test.py:100-121 | the strict table never holds an iid twice |
| Snapshot.AutoFetch | automation/auto.py:230-271 | fetch_emails keeps the token and the service, never leaves an iid twice, and adds at most the error box or the "no emails" notice |
| Snapshot.Listing | test.py:95-98 | without a service the list request raises; otherwise its answer is that of the INBOX query with maxResults 10, so at most 10 ids when Gmail honours maxResults |
| Snapshot.StrictMatchesLenient | test.py:100-117 | when no message fails, the strict table equals the one auto.py builds |
| Snapshot.AutoFetchSnapshot | automation/auto.py:230-271 | auto.py's rebuilt table: unique iids, a row exactly per listed and fetched message, at most 10 rows when Gmail honours maxResults; a failed list gives an empty table and an error box; an empty list gives an empty table and the "no emails" notice |
| Snapshot.StrictFetch | test.py:88-121 | fetch_emails keeps the token and the service and adds at most one error box |
| Snapshot.StrictFetchSnapshot | test.py:88-121 | the table is cleared before listing, so a failed list leaves it empty with one error box; otherwise it holds the rows of the first listed messages in order, no iid twice, with one error box exactly when the loop was cut short |
| Credentials.AutoConnectEffects | automation/auto.py:145-173 | build and connection test keep token and table; fetch_emails is reached, with the service built from the credential, exactly when both succeed; otherwise the path ends in quit and nothing escapes |
| Credentials.AutoSaveEffects | automation/auto.py:137-143 | the credential is saved, or the save fails and the token file keeps what it held; the table stays; whether fetch_emails is reached does not depend on the save |
| Credentials.AutoWelcomeEffects | automation/auto.py:112-122 | the detour after consent never quits and lets nothing escape; it keeps token and table and can only install the service built from the new grant |
| Credentials.AutoAuth | automation/auto.py:59-173 | the credential decision of auto.py only appends to the trace |
| Credentials.AutoSaveEvents | automation/auto.py:137-159 | after saving, the build error, the connection test, or the test followed by its error box; fetch_emails is reached exactly when build and test succeed |
| Credentials.AutoTraceKept | automation/auto.py:95-159 | a credential that survives the refresh step is saved and connected, with the refresh call first when there was one |
| Credentials.AutoTraceConsented | automation/auto.py:103-159 | after a successful consent: the consent flow, the profile lookup and welcome email, then save and connect |
| Credentials.AutoTraceUsable | automation/auto.py:84-162 | a valid stored credential goes straight to build and connection test; fetch_emails is reached exactly when both succeed |
| Credentials.AutoTraceNoConfig | automation/auto.py:84-93 | without a usable credential and without credentials.json, exactly the error box and quit |
| Credentials.AutoTraceRefused | automation/auto.py:103-135 | a failed consent flow ends with the authentication error box and quit, after the refresh call when there was one |
| Credentials.AutoAuthTrace | automation/auto.py:59-173 | the trace of authenticate path by path; fetch_emails is reached exactly when the trace does not end in quit |
| Credentials.AutoCorruptTokenIsAbsent | automation/auto.py:72-81 | a token file that fails to load is removed, and authenticate goes on exactly as with no token file |
| Credentials.AutoNeverCrashes | automation/auto.py:164-173 | no exception escapes authenticate; every path that stops early ends with quit, and the event just before the quit is an error box |
| Credentials.AutoTraceNoCrash | automation/auto.py:84-159 | no path of the decision records an escaping exception, and on every path that ends in quit the event just before the quit is an error box |
| Credentials.AutoMissingConfigQuits | automation/auto.py:84-93 | without a usable credential and without credentials.json: the error box and quit, before any refresh or consent, and no service |
| Credentials.AutoRefreshOrConsent | automation/auto.py:95-108 | an expired credential with a refresh token is refreshed first; if the refresh succeeds, it is saved and used with no consent and no profile lookup; if it fails, the consent flow comes next |
| Credentials.AutoWelcomeOnlyAfterConsent | automation/auto.py:103-122 | the profile lookup happens only after a successful consent; the only message sent is the welcome message to the looked-up address |
| Credentials.AutoTraceWelcome | automation/auto.py:111-122 | the same, for the path-by-path trace |
| Credentials.AutoStaleCredentialKept | automation/auto.py:95-147 | an invalid credential that cannot be refreshed is neither refreshed nor replaced; the token stays, and the service is built from it |
| Credentials.AutoValidStoredUsed | automation/auto.py:84-151 | a valid stored credential is used with no refresh, consent or save; the outcome does not depend on whether saving would work |
| Credentials.StrictConnectEffects | test.py:83 | a failing build escapes; otherwise fetch_emails is reached with the service built from the credential and nothing else happens |
| Credentials.StrictSaveEffects | test.py:78-83 | fetch_emails is reached exactly when save and build both succeed, with the credential then in token.pickle and in the service; a failing save escapes before any service is built |
| Credentials.StrictAuth | test.py:62-80 | the credential decision of test.py and index.py only appends to the trace |
| Credentials.StrictValidStoredUsedAsIs | test.py:65-83 | a valid stored credential is used as it is, with token.pickle not rewritten; a failing build escapes |
| Credentials.StrictInvalidReplaced | test.py:66-80 | an invalid credential is refreshed exactly when expired with a refresh token, otherwise replaced by consent; the result is saved and used; a corrupt token or failing refresh, consent or save escapes |
| Credentials.StrictConsentScopes | index.py:68-70 | the only consent requested is for the variant's own scopes |
| StrictSession.StrictAuthenticate | test.py:62-86 | authenticate of test.py and index.py only appends to the trace |
| StrictSession.StrictAuthenticateOutcome | index.py:56-80 | either an exception is the last thing that happens and the table and service are untouched, or fetch_emails runs with a service; no error box comes from the credential decision |
| StrictSession.StrictAuthShape | test.py:62-83 | the credential decision leaves the table alone and records only the refresh call, the consent flow and the escaping exception; it reaches fetch_emails with a service and a token that is untouched or holds that service's credential, and otherwise ends with the exception and no new service |
| AutoApp.Continue | automation/auto.py:161-162 | fetch_emails runs only when authenticate reached its call: otherwise the state is unchanged; when it runs, token and service are kept and iids are unique; it only appends to the trace |
| AutoApp.AutoAuthenticate | automation/auto.py:59-173 | authenticate followed by fetch_emails only appends to the trace |
| AutoApp.AutoAuthenticateOutcome | automation/auto.py:59-173 | no exception escapes; the table changes only after a passed connection test; when the inbox is fetched, no iid appears twice |
| AutoApp.AutoTraceConnected | automation/auto.py:149-162 | a path that reaches fetch_emails built the service and passed the connection test |
| AutoApp.AutoAuthKeepsRows | automation/auto.py:59-159 | the credential decision never touches the inbox table |
| AutoApp.GmailApp.constructor | automation/auto.py:15-25 | no service and an empty table, then authenticate |
| AutoApp.GmailApp.Authenticate | automation/auto.py:59-173 | the new state is the one AutoAuthenticate gives for the old state |
| AutoApp.GmailApp.SaveConnectAndFetch | automation/auto.py:137-162 | save, then connect and fetch, as AutoSave followed by Continue |
| AutoApp.GmailApp.ConnectAndFetch | automation/auto.py:145-162 | build, test and fetch, as AutoConnect followed by Continue |
| AutoApp.GmailApp.Welcome | automation/auto.py:112-122 | the new state is AutoWelcome of the old one: the service from the new grant, the address lookup and the welcome email |
| AutoApp.GmailApp.SendWelcomeEmail | automation/auto.py:175-228 | only the trace changes, by WelcomeEvents |
| AutoApp.GmailApp.FetchEmails | automation/auto.py:230-271 | the new state is AutoFetch of the old one; the loop keeps the table equal to the lenient rows of the ids seen so far |
| AutoApp.GmailApp.ShowEmailContent | automation/auto.py:274-315 | with nothing selected the handler raises; otherwise only the trace changes, by ContentEvent for the selected id |
| TestApp.GmailApp.constructor | test.py:15-25 | no service and an empty table, then authenticate with the read and send scopes |
| TestApp.GmailApp.Authenticate | test.py:62-86 | the new state is StrictAuthenticate of the old one with the read and send scopes |
| TestApp.GmailApp.FetchEmails | test.py:88-121 | the new state is StrictFetch of the old one; the loop keeps the table equal to the strict rows of the ids seen so far, and stops at the first failure |
| TestApp.GmailApp.ShowEmailContent | test.py:123-164 | with nothing selected the handler raises; otherwise only the trace changes, by ContentEvent |
| TestApp.GmailApp.SendEmail | test.py:193-221 | the new state is SendOutcome for the entered fields and the body as test.py reads it, with Tk's trailing newline |
| IndexApp.GmailApp.constructor | index.py:13-23 | no service and an empty table, then authenticate with the read-only scope |
| IndexApp.GmailApp.Authenticate | index.py:56-80 | the new state is StrictAuthenticate of the old one with the read-only scope |
| IndexApp.GmailApp.FetchEmails | index.py:82-114 | the new state is StrictFetch of the old one, built by the strict loop |
| IndexApp.GmailApp.ShowEmailContent | index.py:116-157 | with nothing selected the handler raises; otherwise only the trace changes, by ContentEvent |
| IndexApp.IndexReadonly | index.py:19 | index.py requests only gmail.readonly, never the send scope, and sends nothing while starting up |

## Left out

- tkinter presentation is not modelled: window layout, setup_gui, compose_email, the Toplevel and Text widgets. Dialogs, quit and the content window appear only as events in the trace. Only the body text is modelled, not how the window renders it.
- Google's client and OAuth libraries are not modelled. build, list, get, send, getProfile, creds.refresh and InstalledAppFlow are inputs whose results may be failures. Their internals and network behaviour are out of scope. `HonoursLimit` assumes, as a stated premise, that Gmail lists no more than maxResults messages.
- pickle and the file system are not modelled. token.pickle is NoToken, Corrupt or Stored. The directory paths and the debugging prints are not modelled.
- Credentials.StrictSave, Credentials.AutoSave, Credentials.AutoSaveEffects, Credentials.AutoStaleCredentialKept: a failed save is modelled as leaving token.pickle as it was, in all three variants (test.py:79-80, index.py:73-74, automation/auto.py:139-140). In the code, open(..., 'wb') truncates the file before pickle.dump runs, so a dump that raises leaves an empty or partial file. On the next start, auto.py deletes that file, while test.py and index.py raise when loading it. The model does not capture that later start.
- Date parsing and strftime are an abstract partial function. Base64url and utf-8 decoding are an abstract partial decoder. MIME serialisation and base64url encoding are kept symbolic as `Base64Url(message)`.
- The wording of the welcome HTML is not modelled. A placeholder constant stands for it.
- process_new_user_signup (automation/auto.py:317-330) is not modelled. It wraps send_welcome_email and adds a dialog.
- Compose.SentMessageReadsBack: assumes a `Delivered` view in which Gmail returns each attached part as a direct child with its text base64url-encoded. This is a premise about the service, not something the source shows.
- Credentials.AutoAuth: one `buildOk` outcome answers both build calls on the consent path (automation/auto.py:113 and 147), so the model does not capture a first build that fails while the second succeeds, or the reverse.
- What follows an escaping exception is not modelled; the trace records it as `Crash`. Raised during start-up in test.py and index.py, it ends `__init__`. Raised in show_email_content when nothing is selected (automation/auto.py:275), Tk's callback wrapper prints it and the window stays open.

## Findings

| source | as written | input that shows it | evidently intended | confidence | as-written member | corrected member |
|---|---|---|---|---|---|---|
| test.py:196-198 | the body is read with Text.get("1.0", END), which always ends with the newline Tk keeps after the last line, so `not body` never holds | a compose window whose body is left empty: the value read is "\n", no error box appears, and an empty message is sent | read up to "end-1c", so that an empty body is rejected like an empty To or Subject | high (not executed) | Compose.EmptyBodySentAsWritten | Compose.EmptyBodyRejected |

=== FILE: auto_app.dfy ===
/** The GmailApp of automation/auto.py: an object whose methods update the
    token file, the Gmail service, the inbox table and what the user has
    been shown. Each method is proved against the functions of Credentials,
    Compose and Snapshot, whose properties are proved there. */
module AutoApp {
  import opened MailCore
  import opened Compose
  import opened Snapshot
  import opened Credentials

  /** What follows the credential decision: fetch_emails when it was reached. */
  function Continue(a: Authed, gmail: Gmail, format: DateFormatter): (r: AppState)
    ensures Extends(a.state, r)
    ensures !a.proceed ==> r == a.state
    ensures a.proceed ==> r.token == a.state.token && r.service == a.state.service && UniqueIds(r.rows)
  {
    if a.proceed then AutoFetch(a.state, gmail, format) else a.state
  }

  /** authenticate as a whole: the credential decision, then fetch_emails
      when it reaches that call. */
  function AutoAuthenticate(s: AppState, env: AuthEnv, gmail: Gmail, format: DateFormatter): (r: AppState)
    ensures Extends(s, r)
  {
    var a := AutoAuth(s, env, gmail);
    SinceChain(s, a.state, Continue(a, gmail, format));
    Continue(a, gmail, format)
  }

  /** authenticate of automation/auto.py never lets an exception escape,
      fetches the inbox only after a successful connection test, and then
      shows only rows of listed messages, each iid once. */
  lemma AutoAuthenticateOutcome(s: AppState, env: AuthEnv, gmail: Gmail, format: DateFormatter)
    ensures var r := AutoAuthenticate(s, env, gmail, format);
      && Crash !in Since(s, r)
      && (r.rows != s.rows ==> ConnectionTest in Since(s, r) && env.connectOk && env.buildOk)
      && (AutoAuth(s, env, gmail).proceed ==> UniqueIds(r.rows))
  {
    var a := AutoAuth(s, env, gmail);
    AutoNeverCrashes(s, env, gmail);
    if a.proceed {
      var r := AutoFetch(a.state, gmail, format);
      SinceChain(s, a.state, r);
      AutoAuthTrace(s, env, gmail);
      AutoTraceConnected(Loaded(s.token), env, gmail);
    } else {
      AutoAuthKeepsRows(s, env, gmail);
    }
  }

  /** A path that goes on to fetch_emails passed the connection test. */
  lemma AutoTraceConnected(creds: Option<Credential>, env: AuthEnv, gmail: Gmail)
    requires var evs := AutoTrace(creds, env, gmail); |evs| > 0 && evs[|evs| - 1] != Quit
    ensures ConnectionTest in AutoTrace(creds, env, gmail) && env.connectOk && env.buildOk
  {
    var evs := AutoTrace(creds, env, gmail);
    var c := ConnectEvents(env);
    assert evs[|evs| - 1] == c[|c| - 1] by {
      if !Usable(creds) && env.configPresent && AfterRefresh(creds, env).None? && env.consent(FullScopes).Some? {
        assert evs == (Pre(creds) + [ConsentFlow(FullScopes)] + WelcomeTrace(env, gmail)) + c;
      }
    }
    assert c == [ConnectionTest];
    assert evs[|evs| - 1] == ConnectionTest;
  }

  /** The credential decision does not touch the inbox table. */
  lemma AutoAuthKeepsRows(s: AppState, env: AuthEnv, gmail: Gmail)
    ensures AutoAuth(s, env, gmail).state.rows == s.rows
  {
  }

  class GmailApp {
    var token: TokenFile
    var service: Option<Credential>
    var rows: seq<Row>
    var events: seq<Event>

    function State(): AppState
      reads this
    {
      AppState(token, service, rows, events)
    }

    /** __init__: no service yet, an empty table, then authenticate. */
    constructor (disk: TokenFile, env: AuthEnv, gmail: Gmail, format: DateFormatter)
      ensures State() == AutoAuthenticate(AppState(disk, None, [], []), env, gmail, format)
    {
      token := disk;
      service := None;
      rows := [];
      events := [];
      new;
      Authenticate(env, gmail, format);
    }

    /** authenticate: load the token, refresh or run the consent flow when
        it is not valid, save, build the service, test it and fetch. */
    method Authenticate(env: AuthEnv, gmail: Gmail, format: DateFormatter)
      modifies this
      ensures State() == AutoAuthenticate(old(State()), env, gmail, format)
    {
      ghost var s := State();
      ghost var s0 := if s.token.Corrupt? then s.(token := NoToken) else s;
      var creds: Option<Credential> := None;
      if token.Corrupt? {
        token := NoToken;
      } else if token.Stored? {
        creds := Some(token.cred);
      }
      assert State() == s0 && creds == Loaded(s.token);
      if creds.Some? && creds.value.valid {
        ConnectAndFetch(creds.value, env, gmail, format);
        return;
      }
      if !env.configPresent {
        events := events + [ErrorBox(MissingConfig), Quit];
        return;
      }
      ghost var tried := Refreshable(creds);
      if Refreshable(creds) {
        events := events + [RefreshCall];
        creds := env.refresh(creds.value);
      }
      ghost var s1 := Note(s0, if tried then [RefreshCall] else []);
      assert State() == s1;
      if creds.Some? {
        assert AutoAuth(s, env, gmail) == AutoSave(s1, creds.value, env);
        SaveConnectAndFetch(creds.value, env, gmail, format);
        return;
      }
      events := events + [ConsentFlow(FullScopes)];
      ghost var s2 := Note(s1, [ConsentFlow(FullScopes)]);
      creds := env.consent(FullScopes);
      if creds.None? {
        events := events + [ErrorBox(AuthFailed), Quit];
        return;
      }
      assert State() == s2;
      Welcome(creds.value, env, gmail);
      assert AutoAuth(s, env, gmail) == AutoSave(AutoWelcome(s2, creds.value, env, gmail), creds.value, env);
      SaveConnectAndFetch(creds.value, env, gmail, format);
    }

    /** The end of authenticate: save `c` (a failure is only printed), then
        build, test and fetch. */
    method SaveConnectAndFetch(c: Credential, env: AuthEnv, gmail: Gmail, format: DateFormatter)
      modifies this
      ensures State() == Continue(AutoSave(old(State()), c, env), gmail, format)
    {
      if env.saveOk {
        token := Stored(c);
      }
      ConnectAndFetch(c, env, gmail, format);
    }

    /** Build the service from `c`, test it with a profile request, and fetch
        the inbox when the test passes. */
    method ConnectAndFetch(c: Credential, env: AuthEnv, gmail: Gmail, format: DateFormatter)
      modifies this
      ensures State() == Continue(AutoConnect(old(State()), c, env), gmail, format)
    {
      if !env.buildOk {
        events := events + [ErrorBox(Unexpected), Quit];
        return;
      }
      service := Some(c);
      events := events + [ConnectionTest];
      if !env.connectOk {
        events := events + [ErrorBox(ConnectionFailed), Quit];
        return;
      }
      FetchEmails(gmail, format);
    }

    /** The consent path's detour: build a service from the new grant, look
        up the user's address and welcome them. */
    method Welcome(g: Credential, env: AuthEnv, gmail: Gmail)
      modifies this
      ensures State() == AutoWelcome(old(State()), g, env, gmail)
    {
      if env.buildOk {
        service := Some(g);
        events := events + [AddressLookup];
        if env.address.Some? {
          SendWelcomeEmail(env.address.value, gmail);
        }
      }
    }

    /** send_welcome_email: the send call, then a notice; every failure is
        shown in an error box and nothing else changes. */
    method SendWelcomeEmail(address: string, gmail: Gmail)
      modifies this
      ensures State() == Note(old(State()), WelcomeEvents(address, gmail))
    {
      var raw := Base64Url(WelcomeMessage(address));
      var outcome := if gmail.send(raw).Some? then InfoBox(WelcomeSent(address)) else ErrorBox(WelcomeFailed);
      events := events + [SendCall(raw), outcome];
    }

    /** fetch_emails: clear the table, list the inbox, then one row per
        message whose get succeeds and whose iid is new. */
    method FetchEmails(gmail: Gmail, format: DateFormatter)
      modifies this
      ensures State() == AutoFetch(old(State()), gmail, format)
    {
      rows := [];
      var listing := Listing(service, gmail);
      if listing.None? {
        events := events + [ErrorBox(FetchFailed)];
        return;
      }
      var ids := listing.value;
      if ids == [] {
        events := events + [InfoBox(NoEmails)];
        return;
      }
      var i := 0;
      while i < |ids|
        invariant 0 <= i <= |ids|
        invariant rows == LenientRows(ids[..i], gmail, format)
        invariant token == old(token) && service == old(service) && events == old(events)
      {
        assert Init(ids[..i + 1]) == ids[..i] && Last(ids[..i + 1]) == ids[i];
        var msg := gmail.get(ids[i]);
        if msg.Some? {
          var inserted := Insert(rows, LenientRow(ids[i], msg.value.headers, format));
          if inserted.Some? {
            rows := inserted.value;
          }
        }
        i := i + 1;
      }
      assert ids[..|ids|] == ids;
    }

    /** show_email_content for the selected row: nothing selected raises
        outside the handler; otherwise the body window or an error box. */
    method ShowEmailContent(selection: seq<MsgId>, gmail: Gmail, decode: Decoder)
      modifies this
      ensures selection == [] ==> State() == Note(old(State()), [Crash])
      ensures selection != [] ==> State() == Note(old(State()), [ContentEvent(old(service), gmail, selection[0], decode)])
    {
      if selection == [] {
        events := events + [Crash];
        return;
      }
      var id := selection[0];
      if service.None? || gmail.get(id).None? {
        events := events + [ErrorBox(ContentFailed)];
        return;
      }
      var body := ExtractBody(gmail.get(id).value, decode);
      if body.None? {
        events := events + [ErrorBox(ContentFailed)];
      } else {
        events := events + [ContentWindow(body.value)];
      }
    }
  }
}

=== FILE: compose.dfy ===
/** Outgoing mail: the welcome message of automation/auto.py and the
    compose-and-send action of test.py, with how such a message reads back
    through the body selection of MailCore once Gmail returns it. */
module Compose {
  import opened MailCore

  // ---------------------------------------------------------------------------
  // The welcome message (automation/auto.py, send_welcome_email)

  const WelcomeSubject := "Welcome to Our Platform!"

  /** Stands for the fixed HTML greeting; its wording is not modelled. */
  const WelcomeHtml := "<html>greeting</html>"

  /** MIMEMultipart with to = from = the user's address, the fixed subject,
      and one text/html part: the message goes from the user to the user. */
  function WelcomeMessage(address: string): (m: Outgoing)
    ensures Lookup(m.headers, "to") == Some(address)
    ensures Lookup(m.headers, "from") == Some(address)
    ensures Lookup(m.headers, "subject") == Some(WelcomeSubject)
    ensures |m.parts| == 1 && m.parts[0].subtype == "html"
  {
    var hs := [Header("to", address), Header("from", address), Header("subject", WelcomeSubject)];
    assert "to"[0] != "subject"[0] && "from"[0] != "subject"[0];
    assert Lookup(hs[2..], "subject") == Some(WelcomeSubject);
    assert Lookup(hs[1..], "subject") == Some(WelcomeSubject);
    Outgoing(hs, [MimeText("html", WelcomeHtml)])
  }

  /** send_welcome_email: one send call, of a message addressed from the
      user to the user, then a success notice naming the address exactly
      when the call returns, and the error box otherwise; nothing
      propagates to the caller and the application is not closed. */
  function WelcomeEvents(address: string, gmail: Gmail): (evs: seq<Event>)
    ensures |evs| == 2 && Crash !in evs && Quit !in evs
    ensures evs[0] == SendCall(Base64Url(WelcomeMessage(address)))
    ensures forall e :: e in evs && e.SendCall? ==>
      && Lookup(e.raw.message.headers, "to") == Some(address)
      && Lookup(e.raw.message.headers, "from") == Some(address)
    ensures !evs[1].SendCall? && (evs[1] == InfoBox(WelcomeSent(address)) <==> gmail.send(evs[0].raw).Some?)
    ensures !evs[1].InfoBox? ==> evs[1] == ErrorBox(WelcomeFailed)
  {
    var raw := Base64Url(WelcomeMessage(address));
    [SendCall(raw)] + if gmail.send(raw).Some? then [InfoBox(WelcomeSent(address))] else [ErrorBox(WelcomeFailed)]
  }

  // ---------------------------------------------------------------------------
  // send_email (test.py)

  /** `not to or not subject or not body`: no trimming, so whitespace passes. */
  predicate MissingField(to: string, subject: string, body: string)
  {
    to == "" || subject == "" || body == ""
  }

  /** MIMEMultipart with To, From = 'me', Subject and one text/plain part
      holding the body. */
  function ComposeMessage(to: string, subject: string, body: string): (m: Outgoing)
    ensures Lookup(m.headers, "To") == Some(to)
    ensures Lookup(m.headers, "From") == Some("me")
    ensures Lookup(m.headers, "Subject") == Some(subject)
    ensures m.parts == [MimeText("plain", body)]
  {
    var hs := [Header("To", to), Header("From", "me"), Header("Subject", subject)];
    assert "To"[0] != "Subject"[0] && "From"[0] != "Subject"[0];
    assert Lookup(hs[2..], "Subject") == Some(subject);
    assert Lookup(hs[1..], "Subject") == Some(subject);
    Outgoing(hs, [MimeText("plain", body)])
  }

  /** send_email on the three field values: the error box and nothing else
      when a field is empty; otherwise the send call with the composed
      message, followed by a success or failure box. Without a service the
      call raises before anything is sent. */
  function SendOutcome(s: AppState, to: string, subject: string, body: string, gmail: Gmail): (r: AppState)
    ensures Extends(s, r) && r.token == s.token && r.service == s.service && r.rows == s.rows
    ensures |Since(s, r)| > 0 && Crash !in Since(s, r) && Quit !in Since(s, r)
    ensures InfoBox(EmailSent) in Since(s, r) <==>
      && !MissingField(to, subject, body) && s.service.Some?
      && gmail.send(Base64Url(ComposeMessage(to, subject, body))).Some?
  {
    if MissingField(to, subject, body) then Note(s, [ErrorBox(FieldsRequired)])
    else if s.service.None? then Note(s, [ErrorBox(SendFailed)])
    else
      var raw := Base64Url(ComposeMessage(to, subject, body));
      Note(s, [SendCall(raw)] + if gmail.send(raw).Some? then [InfoBox(EmailSent)] else [ErrorBox(SendFailed)])
  }

  /** An empty field is reported and nothing is sent; otherwise exactly the
      composed message is submitted, and the table and credentials are
      untouched either way. */
  lemma SendEmailEffects(s: AppState, to: string, subject: string, body: string, gmail: Gmail)
    ensures var r := SendOutcome(s, to, subject, body, gmail);
      && r.token == s.token && r.service == s.service && r.rows == s.rows
      && |r.events| > |s.events| && r.events[..|s.events|] == s.events
      && (MissingField(to, subject, body) ==> r.events == s.events + [ErrorBox(FieldsRequired)])
      && (forall e :: e in r.events[|s.events|..] && e.SendCall? ==>
            !MissingField(to, subject, body) && e.raw == Base64Url(ComposeMessage(to, subject, body)))
      && (!MissingField(to, subject, body) && s.service.Some? ==>
            r.events[|s.events|] == SendCall(Base64Url(ComposeMessage(to, subject, body))))
  {
    var r := SendOutcome(s, to, subject, body, gmail);
    assert r.events[..|s.events|] == s.events;
  }

  /** Fields are not trimmed: fields made only of blanks, tabs and line
      breaks are not rejected. */
  lemma WhitespaceFieldsAccepted(to: string, subject: string, body: string)
    requires to != [] && subject != [] && body != []
    requires forall c :: c in to + subject + body ==> c in " \t\n\r"
    ensures !MissingField(to, subject, body)
  {
  }

  // ---------------------------------------------------------------------------
  // Reading the compose window's body field

  /** send_email as written reads the body with Text.get("1.0", END), which
      returns the text followed by the newline Tk keeps after the last line. */
  function BodyFieldAsWritten(typed: string): string
  {
    typed + "\n"
  }

  /** As written, the body is never reported missing, whatever was typed
      (nothing included): the value read always holds the final newline. */
  lemma EmptyBodyAcceptedAsWritten(to: string, subject: string, typed: string)
    requires to != "" && subject != ""
    ensures !MissingField(to, subject, BodyFieldAsWritten(typed))
  {
    assert |BodyFieldAsWritten(typed)| == |typed| + 1;
  }

  /** As written, send_email with an empty body and a working service sends
      a message whose body is the lone newline, and reports success. */
  lemma EmptyBodySentAsWritten(s: AppState, to: string, subject: string, gmail: Gmail)
    requires to != "" && subject != "" && s.service.Some?
    requires gmail.send(Base64Url(ComposeMessage(to, subject, "\n"))).Some?
    ensures SendOutcome(s, to, subject, BodyFieldAsWritten(""), gmail).events
         == s.events + [SendCall(Base64Url(ComposeMessage(to, subject, "\n"))), InfoBox(EmailSent)]
  {
    assert BodyFieldAsWritten("") == "\n";
    assert !MissingField(to, subject, "\n");
  }

  /** The read that the emptiness check needs: Text.get("1.0", "end-1c"),
      exactly the text typed. */
  function BodyField(typed: string): string
  {
    typed
  }

  /** With the corrected read, an empty body is reported like an empty To
      or Subject, and the body sent is exactly the typed text. */
  lemma EmptyBodyRejected(to: string, subject: string, typed: string)
    ensures MissingField(to, subject, BodyField(typed)) <==> to == "" || subject == "" || typed == ""
    ensures ComposeMessage(to, subject, BodyField(typed)).parts == [MimeText("plain", typed)]
  {
  }

  // ---------------------------------------------------------------------------
  // Reading a sent message back

  /** How users.messages.get presents a multipart message it stored: the
      headers as written, and one direct child per attached part, with
      mimeType text/<subtype> and the part's text base64url-encoded. */
  function Delivered(o: Outgoing, encode: string -> string): (p: Payload)
    ensures p.headers == o.headers && p.parts.Some? && |p.parts.value| == |o.parts|
  {
    Payload(o.headers,
            Some(seq(|o.parts|, i requires 0 <= i < |o.parts| =>
                   Part("text/" + o.parts[i].subtype, Some(encode(o.parts[i].text))))),
            None)
  }

  /** Round trip: a message composed by send_email, read back, shows the
      body string it was composed with and the subject that was entered,
      provided the codec round-trips that body. */
  lemma SentMessageReadsBack(to: string, subject: string, body: string,
                             encode: string -> string, decode: Decoder)
    requires decode(encode(body)) == Some(body)
    ensures var p := Delivered(ComposeMessage(to, subject, body), encode);
      && BodyOf(p, decode) == Some(body)
      && Lookup(p.headers, "Subject") == Some(subject)
      && Lookup(p.headers, "To") == Some(to)
  {
    var p := Delivered(ComposeMessage(to, subject, body), encode);
    assert "text/" + "plain" == TextPlain;
    assert p.parts.value[0] == Part(TextPlain, Some(encode(body)));
    assert Eligible(p.parts.value[0]);
  }

  /** As written, send_email composes the typed text followed by Tk's
      newline, so the viewer shows that newline too: never the typed text
      alone. */
  lemma TypedBodyReadsBackWithNewline(to: string, subject: string, typed: string,
                                      encode: string -> string, decode: Decoder)
    requires decode(encode(BodyFieldAsWritten(typed))) == Some(typed + "\n")
    ensures var p := Delivered(ComposeMessage(to, subject, BodyFieldAsWritten(typed)), encode);
      && BodyOf(p, decode) == Some(typed + "\n")
      && BodyOf(p, decode) != Some(typed)
  {
    SentMessageReadsBack(to, subject, BodyFieldAsWritten(typed), encode, decode);
    assert |typed + "\n"| != |typed|;
  }

  /** The welcome message has no text/plain part, so this client shows it
      with an empty body. */
  lemma WelcomeReadsBackEmpty(address: string, encode: string -> string, decode: Decoder)
    ensures BodyOf(Delivered(WelcomeMessage(address), encode), decode) == Some("")
  {
    var p := Delivered(WelcomeMessage(address), encode);
    assert p.parts.value[0].mimeType == "text/" + "html";
    assert "text/" + "html" != TextPlain by {
      assert ("text/" + "html")[5] == 'h';
    }
    assert !Eligible(p.parts.value[0]);
  }
}

=== FILE: credentials.dfy ===
/** authenticate: deciding between the stored token, a refresh and the
    interactive consent flow. automation/auto.py recovers from a corrupt
    token and from a failed refresh, checks credentials.json first and keeps
    a stale credential it cannot refresh; test.py and index.py recover from
    nothing and replace every credential they cannot refresh. The functions
    stop where authenticate calls fetch_emails (`proceed`). */
module Credentials {
  import opened MailCore
  import opened Compose

  /** The scopes requested by automation/auto.py and test.py. */
  const FullScopes := [GmailReadonly, GmailSend]

  /** The one scope requested by index.py. */
  const ReadonlyScopes := [GmailReadonly]

  /** The state authenticate leaves, and whether it goes on to fetch_emails. */
  datatype Authed = Authed(state: AppState, proceed: bool)

  // ---------------------------------------------------------------------------
  // automation/auto.py

  /** Build the service from `c` and test it with a profile request; a
      failing build lands in the outer handler, a failing test in its own. */
  function AutoConnect(s: AppState, c: Credential, env: AuthEnv): Authed
  {
    if !env.buildOk then Authed(Note(s, [ErrorBox(Unexpected), Quit]), false)
    else
      var s1 := Note(s.(service := Some(c)), [ConnectionTest]);
      if env.connectOk then Authed(s1, true)
      else Authed(Note(s1, [ErrorBox(ConnectionFailed), Quit]), false)
  }

  /** Save `c` into token.pickle (a failing save is only printed), then connect. */
  function AutoSave(s: AppState, c: Credential, env: AuthEnv): Authed
  {
    AutoConnect(if env.saveOk then s.(token := Stored(c)) else s, c, env)
  }

  /** On the consent path only: build a service from the new grant, look up
      the user's address and send the welcome email; a failure is printed. */
  function AutoWelcome(s: AppState, g: Credential, env: AuthEnv, gmail: Gmail): AppState
  {
    if !env.buildOk then s
    else
      Note(s.(service := Some(g)),
           [AddressLookup] + if env.address.Some? then WelcomeEvents(env.address.value, gmail) else [])
  }

  /** Connecting leaves the token and the table alone; it reaches
      fetch_emails, with the service built from `c`, exactly when the build
      and the connection test succeed, and otherwise ends in quit without
      letting an exception escape. */
  lemma AutoConnectEffects(s: AppState, c: Credential, env: AuthEnv)
    ensures var a := AutoConnect(s, c, env);
      && Extends(s, a.state) && a.state.token == s.token && a.state.rows == s.rows
      && (a.proceed <==> env.buildOk && env.connectOk)
      && (a.proceed ==> a.state.service == Some(c) && ConnectionTest in Since(s, a.state))
      && (!a.proceed ==> Since(s, a.state)[|Since(s, a.state)| - 1] == Quit && Crash !in Since(s, a.state))
  {
  }

  /** A failing save is only printed: the token file then keeps what it
      held, and whether fetch_emails is reached does not depend on it. */
  lemma AutoSaveEffects(s: AppState, c: Credential, env: AuthEnv)
    ensures var a := AutoSave(s, c, env);
      && Extends(s, a.state) && a.state.rows == s.rows
      && (a.state.token == Stored(c) || (!env.saveOk && a.state.token == s.token))
      && a.proceed == AutoSave(s, c, env.(saveOk := !env.saveOk)).proceed
  {
  }

  /** The welcome detour never ends the application and never lets an
      exception escape; it keeps the token and the table, and can only
      install the service built from the new grant. */
  lemma AutoWelcomeEffects(s: AppState, g: Credential, env: AuthEnv, gmail: Gmail)
    ensures var r := AutoWelcome(s, g, env, gmail);
      && Extends(s, r) && r.token == s.token && r.rows == s.rows
      && (r.service == s.service || (env.buildOk && r.service == Some(g)))
      && Crash !in Since(s, r) && Quit !in Since(s, r)
  {
  }

  /** authenticate of automation/auto.py up to its call of fetch_emails. */
  function AutoAuth(s: AppState, env: AuthEnv, gmail: Gmail): (a: Authed)
    ensures Extends(s, a.state)
  {
    var s0 := if s.token.Corrupt? then s.(token := NoToken) else s;
    var creds := Loaded(s.token);
    if creds.Some? && creds.value.valid then AutoConnect(s0, creds.value, env)
    else if !env.configPresent then Authed(Note(s0, [ErrorBox(MissingConfig), Quit]), false)
    else
      var tried := Refreshable(creds);
      var kept := if tried then env.refresh(creds.value) else creds;
      var s1 := Note(s0, if tried then [RefreshCall] else []);
      if kept.Some? then AutoSave(s1, kept.value, env)
      else
        var s2 := Note(s1, [ConsentFlow(FullScopes)]);
        match env.consent(FullScopes)
        case None => Authed(Note(s2, [ErrorBox(AuthFailed), Quit]), false)
        case Some(g) => AutoSave(AutoWelcome(s2, g, env, gmail), g, env)
  }

  /** The events of AutoConnect. */
  function ConnectEvents(env: AuthEnv): seq<Event>
  {
    if !env.buildOk then [ErrorBox(Unexpected), Quit]
    else if env.connectOk then [ConnectionTest]
    else [ConnectionTest, ErrorBox(ConnectionFailed), Quit]
  }

  /** The events of AutoWelcome. */
  function WelcomeTrace(env: AuthEnv, gmail: Gmail): seq<Event>
  {
    if !env.buildOk then []
    else [AddressLookup] + if env.address.Some? then WelcomeEvents(env.address.value, gmail) else []
  }

  lemma SinceChain(s: AppState, m: AppState, r: AppState)
    requires Extends(s, m) && Extends(m, r)
    ensures Extends(s, r) && Since(s, r) == Since(s, m) + Since(m, r)
  {
    assert r.events[..|s.events|] == r.events[..|m.events|][..|s.events|];
    assert r.events[|s.events|..] == r.events[|s.events|..|m.events|] + r.events[|m.events|..];
  }

  lemma AutoSaveEvents(s: AppState, c: Credential, env: AuthEnv)
    ensures Extends(s, AutoSave(s, c, env).state)
    ensures Since(s, AutoSave(s, c, env).state) == ConnectEvents(env)
    ensures AutoSave(s, c, env).proceed == (env.buildOk && env.connectOk)
  {
  }

  /** The pieces of a path through AutoAuth. */
  function Pre(creds: Option<Credential>): seq<Event>
  {
    if Refreshable(creds) then [RefreshCall] else []
  }

  function AfterRefresh(creds: Option<Credential>, env: AuthEnv): Option<Credential>
    requires Refreshable(creds) ==> creds.Some?
  {
    if Refreshable(creds) then env.refresh(creds.value) else creds
  }

  predicate Usable(creds: Option<Credential>)
  {
    creds.Some? && creds.value.valid
  }

  lemma AutoTraceKept(s: AppState, env: AuthEnv, gmail: Gmail)
    requires !Usable(Loaded(s.token)) && env.configPresent && AfterRefresh(Loaded(s.token), env).Some?
    ensures Since(s, AutoAuth(s, env, gmail).state) == Pre(Loaded(s.token)) + ConnectEvents(env)
    ensures AutoAuth(s, env, gmail).proceed == (env.buildOk && env.connectOk)
  {
    var creds := Loaded(s.token);
    var s0 := if s.token.Corrupt? then s.(token := NoToken) else s;
    var s1 := Note(s0, Pre(creds));
    AutoSaveEvents(s1, AfterRefresh(creds, env).value, env);
    SinceChain(s, s1, AutoAuth(s, env, gmail).state);
  }

  lemma AutoTraceConsented(s: AppState, env: AuthEnv, gmail: Gmail)
    requires !Usable(Loaded(s.token)) && env.configPresent && AfterRefresh(Loaded(s.token), env).None?
    requires env.consent(FullScopes).Some?
    ensures Since(s, AutoAuth(s, env, gmail).state)
         == Pre(Loaded(s.token)) + [ConsentFlow(FullScopes)] + WelcomeTrace(env, gmail) + ConnectEvents(env)
    ensures AutoAuth(s, env, gmail).proceed == (env.buildOk && env.connectOk)
  {
    var creds := Loaded(s.token);
    var s0 := if s.token.Corrupt? then s.(token := NoToken) else s;
    var s1 := Note(s0, Pre(creds));
    var s2 := Note(s1, [ConsentFlow(FullScopes)]);
    var g := env.consent(FullScopes).value;
    var s3 := AutoWelcome(s2, g, env, gmail);
    assert AutoAuth(s, env, gmail) == AutoSave(s3, g, env);
    assert Extends(s2, s3) && Since(s2, s3) == WelcomeTrace(env, gmail);
    AutoSaveEvents(s3, g, env);
    SinceChain(s, s1, s2);
    SinceChain(s, s2, s3);
    SinceChain(s, s3, AutoAuth(s, env, gmail).state);
  }

  /** The events authenticate in automation/auto.py emits, path by path. */
  function AutoTrace(creds: Option<Credential>, env: AuthEnv, gmail: Gmail): seq<Event>
  {
    if Usable(creds) then ConnectEvents(env)
    else if !env.configPresent then [ErrorBox(MissingConfig), Quit]
    else if AfterRefresh(creds, env).Some? then Pre(creds) + ConnectEvents(env)
    else if env.consent(FullScopes).None? then Pre(creds) + [ConsentFlow(FullScopes), ErrorBox(AuthFailed), Quit]
    else Pre(creds) + [ConsentFlow(FullScopes)] + WelcomeTrace(env, gmail) + ConnectEvents(env)
  }

  lemma AutoAuthTrace(s: AppState, env: AuthEnv, gmail: Gmail)
    ensures var a := AutoAuth(s, env, gmail);
      var evs := AutoTrace(Loaded(s.token), env, gmail);
      && Since(s, a.state) == evs
      && |evs| > 0 && (a.proceed <==> evs[|evs| - 1] != Quit)
  {
    var creds := Loaded(s.token);
    if Usable(creds) {
      AutoTraceUsable(s, env, gmail);
    } else if !env.configPresent {
      AutoTraceNoConfig(s, env, gmail);
    } else if AfterRefresh(creds, env).Some? {
      AutoTraceKept(s, env, gmail);
    } else if env.consent(FullScopes).None? {
      AutoTraceRefused(s, env, gmail);
    } else {
      AutoTraceConsented(s, env, gmail);
    }
  }

  lemma AutoTraceUsable(s: AppState, env: AuthEnv, gmail: Gmail)
    requires Usable(Loaded(s.token))
    ensures Since(s, AutoAuth(s, env, gmail).state) == ConnectEvents(env)
    ensures AutoAuth(s, env, gmail).proceed == (env.buildOk && env.connectOk)
  {
    var s0 := if s.token.Corrupt? then s.(token := NoToken) else s;
    AutoSaveEvents(s0, Loaded(s.token).value, env.(saveOk := false));
  }

  lemma AutoTraceNoConfig(s: AppState, env: AuthEnv, gmail: Gmail)
    requires !Usable(Loaded(s.token)) && !env.configPresent
    ensures Since(s, AutoAuth(s, env, gmail).state) == [ErrorBox(MissingConfig), Quit]
    ensures !AutoAuth(s, env, gmail).proceed
  {
  }

  lemma AutoTraceRefused(s: AppState, env: AuthEnv, gmail: Gmail)
    requires !Usable(Loaded(s.token)) && env.configPresent && AfterRefresh(Loaded(s.token), env).None?
    requires env.consent(FullScopes).None?
    ensures Since(s, AutoAuth(s, env, gmail).state)
         == Pre(Loaded(s.token)) + [ConsentFlow(FullScopes), ErrorBox(AuthFailed), Quit]
    ensures !AutoAuth(s, env, gmail).proceed
  {
    var creds := Loaded(s.token);
    var s0 := if s.token.Corrupt? then s.(token := NoToken) else s;
    var s1 := Note(s0, Pre(creds));
    var s2 := Note(s1, [ConsentFlow(FullScopes)]);
    var r := Note(s2, [ErrorBox(AuthFailed), Quit]);
    assert AutoAuth(s, env, gmail).state == r;
    SinceChain(s, s1, s2);
    SinceChain(s, s2, r);
  }

  /** A token file that fails to load is removed, and authenticate goes on
      exactly as if there had been none; it never aborts because of it. */
  lemma AutoCorruptTokenIsAbsent(s: AppState, env: AuthEnv, gmail: Gmail)
    requires s.token.Corrupt?
    ensures AutoAuth(s, env, gmail) == AutoAuth(s.(token := NoToken), env, gmail)
    ensures !AutoAuth(s, env, gmail).state.token.Corrupt?
  {
  }

  /** No exception escapes authenticate in automation/auto.py: every failure
      ends in an error box and quit, or is only printed. */
  lemma AutoNeverCrashes(s: AppState, env: AuthEnv, gmail: Gmail)
    ensures var a := AutoAuth(s, env, gmail);
      && Crash !in Since(s, a.state)
      && (!a.proceed ==> && |Since(s, a.state)| >= 2 && Since(s, a.state)[|Since(s, a.state)| - 1] == Quit
                         && Since(s, a.state)[|Since(s, a.state)| - 2].ErrorBox?)
  {
    AutoAuthTrace(s, env, gmail);
    AutoTraceNoCrash(Loaded(s.token), env, gmail);
  }

  lemma AutoTraceNoCrash(creds: Option<Credential>, env: AuthEnv, gmail: Gmail)
    ensures var evs := AutoTrace(creds, env, gmail);
      Crash !in evs && (|evs| > 0 && evs[|evs| - 1] == Quit ==> |evs| >= 2 && evs[|evs| - 2].ErrorBox?)
  {
    var evs := AutoTrace(creds, env, gmail);
    if !Usable(creds) && env.configPresent && AfterRefresh(creds, env).None? && env.consent(FullScopes).Some? {
      var w := WelcomeTrace(env, gmail);
      var c := ConnectEvents(env);
      var x := Pre(creds) + [ConsentFlow(FullScopes)] + w;
      assert evs == x + c;
      assert Crash !in w;
      assert evs[|evs| - 1] == c[|c| - 1];
      if c[|c| - 1] == Quit {
        assert evs[|evs| - 2] == c[|c| - 2];
      }
    }
  }

  /** Without a usable credential and without credentials.json: an error box
      and quit, before any refresh or consent, even for a refreshable token. */
  lemma AutoMissingConfigQuits(s: AppState, env: AuthEnv, gmail: Gmail)
    requires Loaded(s.token).None? || !Loaded(s.token).value.valid
    requires !env.configPresent
    ensures var a := AutoAuth(s, env, gmail);
      && !a.proceed
      && Since(s, a.state) == [ErrorBox(MissingConfig), Quit]
      && a.state.service == s.service
      && a.state.token == if s.token.Corrupt? then NoToken else s.token
  {
  }

  /** An expired credential with a refresh token is refreshed, then saved and
      used; if the refresh raises, the consent flow runs next. */
  lemma AutoRefreshOrConsent(s: AppState, env: AuthEnv, gmail: Gmail)
    requires Refreshable(Loaded(s.token)) && !Loaded(s.token).value.valid
    requires env.configPresent
    ensures var a := AutoAuth(s, env, gmail);
      var evs := Since(s, a.state);
      var r := env.refresh(Loaded(s.token).value);
      && |evs| >= 2 && evs[0] == RefreshCall
      && (r.Some? ==> && ConsentFlow(FullScopes) !in evs && AddressLookup !in evs
                      && (env.saveOk ==> a.state.token == Stored(r.value))
                      && (env.buildOk ==> a.state.service == Some(r.value)))
      && (r.None? ==> evs[1] == ConsentFlow(FullScopes))
  {
  }

  /** The address lookup and the welcome email happen only after a
      successful consent flow, never after a refresh or with a stored
      credential, and the only message sent is the welcome message to the
      looked-up address. */
  lemma AutoWelcomeOnlyAfterConsent(s: AppState, env: AuthEnv, gmail: Gmail)
    ensures var a := AutoAuth(s, env, gmail);
      var evs := Since(s, a.state);
      && (AddressLookup in evs ==> ConsentFlow(FullScopes) in evs && env.consent(FullScopes).Some? && env.buildOk)
      && (forall e :: e in evs && e.SendCall? ==>
            && AddressLookup in evs
            && env.address.Some?
            && e.raw == Base64Url(WelcomeMessage(env.address.value)))
  {
    AutoAuthTrace(s, env, gmail);
    AutoTraceWelcome(Loaded(s.token), env, gmail);
  }

  lemma AutoTraceWelcome(creds: Option<Credential>, env: AuthEnv, gmail: Gmail)
    ensures var evs := AutoTrace(creds, env, gmail);
      && (AddressLookup in evs ==> ConsentFlow(FullScopes) in evs && env.consent(FullScopes).Some? && env.buildOk)
      && (forall e :: e in evs && e.SendCall? ==>
            && AddressLookup in evs
            && env.address.Some?
            && e.raw == Base64Url(WelcomeMessage(env.address.value)))
  {
    var evs := AutoTrace(creds, env, gmail);
    if !Usable(creds) && env.configPresent && AfterRefresh(creds, env).None? && env.consent(FullScopes).Some? {
      var w := WelcomeTrace(env, gmail);
      assert evs == (Pre(creds) + [ConsentFlow(FullScopes)]) + w + ConnectEvents(env);
      assert ConsentFlow(FullScopes) in evs;
      WelcomeTraceSends(env, gmail);
      forall e | e in evs && (e.SendCall? || e.AddressLookup?)
        ensures e in w
      {
      }
      if env.buildOk {
        assert AddressLookup in w;
      }
    }
  }

  /** The only send call of the consent path's detour is the welcome
      message to the address looked up. */
  lemma WelcomeTraceSends(env: AuthEnv, gmail: Gmail)
    ensures forall e :: e in WelcomeTrace(env, gmail) && e.SendCall? ==>
      env.buildOk && env.address.Some? && e.raw == Base64Url(WelcomeMessage(env.address.value))
  {
    if env.buildOk && env.address.Some? {
      var w := WelcomeEvents(env.address.value, gmail);
      assert WelcomeTrace(env, gmail) == [AddressLookup, w[0], w[1]];
    }
  }

  /** An invalid credential that is not expired-with-a-refresh-token is
      neither refreshed nor replaced: it is saved back and the service is
      built from it as it is. */
  lemma AutoStaleCredentialKept(s: AppState, env: AuthEnv, gmail: Gmail)
    requires Loaded(s.token).Some? && !Loaded(s.token).value.valid && !Refreshable(Loaded(s.token))
    requires env.configPresent
    ensures var a := AutoAuth(s, env, gmail);
      var evs := Since(s, a.state);
      && RefreshCall !in evs && ConsentFlow(FullScopes) !in evs
      && a.state.token == s.token
      && (env.buildOk ==> a.state.service == Loaded(s.token))
  {
  }

  /** A valid stored credential is used without refresh, consent or save:
      the outcome does not depend on whether token.pickle could be written. */
  lemma AutoValidStoredUsed(s: AppState, env: AuthEnv, gmail: Gmail)
    requires Loaded(s.token).Some? && Loaded(s.token).value.valid
    ensures var a := AutoAuth(s, env, gmail);
      && a == AutoAuth(s, env.(saveOk := !env.saveOk), gmail)
      && a.state.token == s.token
      && Since(s, a.state) == (if !env.buildOk then [ErrorBox(Unexpected), Quit]
                               else if env.connectOk then [ConnectionTest]
                               else [ConnectionTest, ErrorBox(ConnectionFailed), Quit])
      && (env.buildOk ==> a.state.service == Loaded(s.token))
  {
  }

  // ---------------------------------------------------------------------------
  // test.py and index.py

  /** Build the service from `c`; a failing build escapes authenticate. */
  function StrictConnect(s: AppState, c: Credential, env: AuthEnv): Authed
  {
    if !env.buildOk then Authed(Note(s, [Crash]), false)
    else Authed(s.(service := Some(c)), true)
  }

  /** Save `c` into token.pickle, then connect; a failing save escapes. */
  function StrictSave(s: AppState, c: Credential, env: AuthEnv): Authed
  {
    if !env.saveOk then Authed(Note(s, [Crash]), false)
    else StrictConnect(s.(token := Stored(c)), c, env)
  }

  /** A failing build escapes; otherwise fetch_emails is reached with the
      service built from `c`, and nothing else happens. */
  lemma StrictConnectEffects(s: AppState, c: Credential, env: AuthEnv)
    ensures var a := StrictConnect(s, c, env);
      && Extends(s, a.state) && a.state.token == s.token && a.state.rows == s.rows
      && (a.proceed <==> env.buildOk)
      && (a.proceed ==> a.state.service == Some(c) && Since(s, a.state) == [])
      && (!a.proceed ==> Since(s, a.state) == [Crash])
  {
  }

  /** fetch_emails is reached exactly when both the save and the build
      succeed, and then `c` is in token.pickle and in the service; a
      failing save escapes before the service is built. */
  lemma StrictSaveEffects(s: AppState, c: Credential, env: AuthEnv)
    ensures var a := StrictSave(s, c, env);
      && Extends(s, a.state) && a.state.rows == s.rows
      && (a.proceed <==> env.saveOk && env.buildOk)
      && (a.proceed ==> a.state.token == Stored(c) && a.state.service == Some(c) && Since(s, a.state) == [])
      && (!env.saveOk ==> a.state.service == s.service && Since(s, a.state) == [Crash])
  {
  }

  /** authenticate of test.py (scopes FullScopes) and index.py (scopes
      ReadonlyScopes) up to its call of fetch_emails. */
  function StrictAuth(s: AppState, env: AuthEnv, scopes: seq<string>): (a: Authed)
    ensures Extends(s, a.state)
  {
    if s.token.Corrupt? then Authed(Note(s, [Crash]), false)
    else
      var creds := Loaded(s.token);
      if creds.Some? && creds.value.valid then StrictConnect(s, creds.value, env)
      else if Refreshable(creds) then
        match env.refresh(creds.value)
        case None => Authed(Note(s, [RefreshCall, Crash]), false)
        case Some(r) => StrictSave(Note(s, [RefreshCall]), r, env)
      else if !env.configPresent then Authed(Note(s, [Crash]), false)
      else
        match env.consent(scopes)
        case None => Authed(Note(s, [ConsentFlow(scopes), Crash]), false)
        case Some(g) => StrictSave(Note(s, [ConsentFlow(scopes)]), g, env)
  }

  /** A valid stored credential is used as it is: no refresh, no consent,
      token.pickle not rewritten. */
  lemma StrictValidStoredUsedAsIs(s: AppState, env: AuthEnv, scopes: seq<string>)
    requires Loaded(s.token).Some? && Loaded(s.token).value.valid
    ensures var a := StrictAuth(s, env, scopes);
      && a == StrictAuth(s, env.(saveOk := !env.saveOk), scopes)
      && a.state.token == s.token
      && Since(s, a.state) == (if env.buildOk then [] else [Crash])
      && (env.buildOk ==> a.proceed && a.state.service == Loaded(s.token))
  {
  }

  /** Without a valid credential: a refresh exactly when the credential is
      expired with a refresh token, otherwise the consent flow with
      `scopes`; whichever credential results is saved and used. Nothing is
      caught: a token that does not load, a failing refresh, consent, save
      or build ends authenticate with an escaping exception. */
  lemma StrictInvalidReplaced(s: AppState, env: AuthEnv, scopes: seq<string>)
    requires Loaded(s.token).None? || !Loaded(s.token).value.valid
    ensures var a := StrictAuth(s, env, scopes);
      var evs := Since(s, a.state);
      var creds := Loaded(s.token);
      && (s.token.Corrupt? ==> evs == [Crash] && !a.proceed)
      && (!s.token.Corrupt? && Refreshable(creds) ==>
            && evs[0] == RefreshCall && ConsentFlow(scopes) !in evs
            && (a.proceed ==> env.refresh(creds.value).Some?
                              && a.state.token == Stored(env.refresh(creds.value).value)
                              && a.state.service == env.refresh(creds.value)))
      && (!s.token.Corrupt? && !Refreshable(creds) ==>
            && RefreshCall !in evs
            && (env.configPresent ==> evs[0] == ConsentFlow(scopes))
            && (!env.configPresent ==> evs == [Crash])
            && (a.proceed ==> env.consent(scopes).Some?
                              && a.state.token == Stored(env.consent(scopes).value)
                              && a.state.service == env.consent(scopes)))
      && (!a.proceed ==> evs[|evs| - 1] == Crash)
  {
  }

  /** The only consent ever requested is for `scopes`. */
  lemma StrictConsentScopes(s: AppState, env: AuthEnv, scopes: seq<string>)
    ensures var a := StrictAuth(s, env, scopes);
      forall e :: e in Since(s, a.state) && e.ConsentFlow? ==> e.scopes == scopes
  {
  }
}

=== FILE: index_app.dfy ===
/** The GmailApp of index.py: the strict authenticate and fetch_emails of
    test.py with the read-only scope, and the body viewer; it has no way to
    send mail. */
module IndexApp {
  import opened MailCore
  import opened Snapshot
  import opened Credentials
  import opened StrictSession

  class GmailApp {
    var token: TokenFile
    var service: Option<Credential>
    var rows: seq<Row>
    var events: seq<Event>

    function State(): AppState
      reads this
    {
      AppState(token, service, rows, events)
    }

    /** __init__: no service yet, an empty table, then authenticate with
        the read-only scope. */
    constructor (disk: TokenFile, env: AuthEnv, gmail: Gmail, format: DateFormatter)
      ensures State() == StrictAuthenticate(AppState(disk, None, [], []), env, gmail, format, ReadonlyScopes)
    {
      token := disk;
      service := None;
      rows := [];
      events := [];
      new;
      Authenticate(env, gmail, format);
    }

    /** authenticate: load the token, refresh it or run the consent flow
        when it is not valid, save it, build the service and fetch; any
        failure along the way raises out of the method. */
    method Authenticate(env: AuthEnv, gmail: Gmail, format: DateFormatter)
      modifies this
      ensures State() == StrictAuthenticate(old(State()), env, gmail, format, ReadonlyScopes)
    {
      if token.Corrupt? {
        events := events + [Crash];
        return;
      }
      var creds: Option<Credential> := None;
      if token.Stored? {
        creds := Some(token.cred);
      }
      if creds.None? || !creds.value.valid {
        if Refreshable(creds) {
          events := events + [RefreshCall];
          creds := env.refresh(creds.value);
        } else if env.configPresent {
          events := events + [ConsentFlow(ReadonlyScopes)];
          creds := env.consent(ReadonlyScopes);
        } else {
          creds := None;
        }
        if creds.None? || !env.saveOk {
          events := events + [Crash];
          return;
        }
        token := Stored(creds.value);
      }
      if !env.buildOk {
        events := events + [Crash];
        return;
      }
      service := creds;
      FetchEmails(gmail, format);
    }

    /** fetch_emails: clear the table, list the inbox, then add the rows in
        list order until the first message that raises; that one is
        reported and ends the loop. */
    method FetchEmails(gmail: Gmail, format: DateFormatter)
      modifies this
      ensures State() == StrictFetch(old(State()), gmail, format)
    {
      rows := [];
      var listing := Listing(service, gmail);
      if listing.None? {
        events := events + [ErrorBox(FetchFailed)];
        return;
      }
      var ids := listing.value;
      var i := 0;
      while i < |ids|
        invariant 0 <= i <= |ids|
        invariant StrictRows(ids[..i], gmail, format) == Progress(rows, false)
        invariant token == old(token) && service == old(service) && events == old(events)
      {
        assert Init(ids[..i + 1]) == ids[..i] && Last(ids[..i + 1]) == ids[i];
        var msg := gmail.get(ids[i]);
        var row := if msg.Some? then StrictRow(ids[i], msg.value.headers, format) else None;
        var inserted := if row.Some? then Insert(rows, row.value) else None;
        if inserted.None? {
          StrictAbortIsFinal(ids, i + 1, gmail, format);
          events := events + [ErrorBox(FetchFailed)];
          return;
        }
        rows := inserted.value;
        i := i + 1;
      }
      assert ids[..|ids|] == ids;
    }

    /** show_email_content for the selected row: nothing selected raises
        outside the handler; otherwise the body window or an error box. */
    method ShowEmailContent(selection: seq<MsgId>, gmail: Gmail, decode: Decoder)
      modifies this
      ensures selection == [] ==> State() == Note(old(State()), [Crash])
      ensures selection != [] ==> State() == Note(old(State()), [ContentEvent(old(service), gmail, selection[0], decode)])
    {
      if selection == [] {
        events := events + [Crash];
        return;
      }
      var id := selection[0];
      if service.None? || gmail.get(id).None? {
        events := events + [ErrorBox(ContentFailed)];
        return;
      }
      var body := ExtractBody(gmail.get(id).value, decode);
      if body.None? {
        events := events + [ErrorBox(ContentFailed)];
      } else {
        events := events + [ContentWindow(body.value)];
      }
    }
  }

  /** index.py asks for read access only, and nothing it does on start-up
      sends mail: the one consent ever requested is for gmail.readonly. */
  lemma IndexReadonly(s: AppState, env: AuthEnv, gmail: Gmail, format: DateFormatter)
    ensures var r := StrictAuthenticate(s, env, gmail, format, ReadonlyScopes);
      && GmailSend !in ReadonlyScopes
      && (forall e :: e in Since(s, r) && e.ConsentFlow? ==> e.scopes == [GmailReadonly])
      && (forall e :: e in Since(s, r) ==> !e.SendCall?)
  {
    var a := StrictAuth(s, env, ReadonlyScopes);
    StrictAuthShape(s, env, ReadonlyScopes);
    if a.proceed {
      SinceChain(s, a.state, StrictFetch(a.state, gmail, format));
    }
    assert GmailSend[38] != GmailReadonly[38];
  }
}

=== FILE: mail_core.dfy ===
/** Values and pure logic shared, line for line, by the three variants of the
    Gmail inbox viewer (automation/auto.py, test.py, index.py): the shape of
    the Gmail API responses the client reads, the inbox table, the header
    lookup that fills a row, and the choice of the body shown for a message.
    Calls into Google's libraries and the network are not modelled; their
    outcomes are the inputs `Gmail`, `AuthEnv`, `DateFormatter` and `Decoder`. */
module MailCore {

  datatype Option<+T> = None | Some(value: T)

  type MsgId = string

  // ---------------------------------------------------------------------------
  // Messages as users.messages.get(format='full') returns them

  /** One entry of payload['headers']. */
  datatype Header = Header(name: string, value: string)

  /** A direct child of payload['parts']: its mimeType and, when the key is
      present, its body['data'] (base64url text). */
  datatype Part = Part(mimeType: string, data: Option<string>)

  /** payload: its headers, its parts when the key 'parts' is present, and
      its own body['data'] when that key is present. */
  datatype Payload = Payload(headers: seq<Header>, parts: Option<seq<Part>>, data: Option<string>)

  // ---------------------------------------------------------------------------
  // Outgoing messages

  /** A MIMEText attached to an outgoing MIMEMultipart: subtype and text. */
  datatype MimeText = MimeText(subtype: string, text: string)

  /** An outgoing MIMEMultipart: the headers in the order they were set, with
      the names as written, and the attached parts. */
  datatype Outgoing = Outgoing(headers: seq<Header>, parts: seq<MimeText>)

  /** The 'raw' field of a send request: the base64url encoding of the
      serialized message, kept symbolic. */
  datatype Raw = Base64Url(message: Outgoing)

  // ---------------------------------------------------------------------------
  // The remote service

  /** The arguments of users.messages.list. */
  datatype ListQuery = ListQuery(labelIds: seq<string>, maxResults: nat)

  /** fetch_emails in every variant lists at most 10 INBOX messages. */
  const InboxQuery := ListQuery(["INBOX"], 10)

  /** What Gmail answers; None stands for a call that raises. */
  datatype Gmail = Gmail(
    list: ListQuery -> Option<seq<MsgId>>,
    get: MsgId -> Option<Payload>,
    send: Raw -> Option<MsgId>)

  /** A service that never lists more messages than it was asked for. */
  ghost predicate HonoursLimit(gmail: Gmail)
  {
    forall q, ids :: gmail.list(q) == Some(ids) ==> |ids| <= q.maxResults
  }

  // ---------------------------------------------------------------------------
  // Credentials and their storage

  const GmailReadonly := "https://www.googleapis.com/auth/gmail.readonly"
  const GmailSend := "https://www.googleapis.com/auth/gmail.send"

  /** The flags of a google-auth credential that authenticate branches on. */
  datatype Credential = Credential(access: string, valid: bool, expired: bool, hasRefreshToken: bool)

  /** token.pickle: missing, present but not loadable, or a pickled credential. */
  datatype TokenFile = NoToken | Corrupt | Stored(cred: Credential)

  /** What authenticate finds in token.pickle (None when absent or corrupt). */
  function Loaded(token: TokenFile): (r: Option<Credential>)
    ensures r.Some? <==> token.Stored?
  {
    if token.Stored? then Some(token.cred) else None
  }

  /** `creds and creds.expired and creds.refresh_token` */
  predicate Refreshable(creds: Option<Credential>)
  {
    creds.Some? && creds.value.expired && creds.value.hasRefreshToken
  }

  /** Outcomes of the library calls made while authenticating; None or false
      stands for a call that raises. */
  datatype AuthEnv = AuthEnv(
    configPresent: bool,                        // credentials.json exists
    refresh: Credential -> Option<Credential>,  // creds.refresh(Request())
    consent: seq<string> -> Option<Credential>, // InstalledAppFlow ... run_local_server(port=0)
    saveOk: bool,                               // pickle.dump into token.pickle
    buildOk: bool,                              // build('gmail', 'v1', credentials=creds)
    address: Option<string>,                    // getProfile()['emailAddress'] (auto.py, consent path)
    connectOk: bool)                            // getProfile() connection test (auto.py)

  // ---------------------------------------------------------------------------
  // What the user sees, and the calls that leave the program

  datatype Failure =
    | MissingConfig | AuthFailed | ConnectionFailed | Unexpected
    | FetchFailed | ContentFailed | WelcomeFailed | SendFailed | FieldsRequired

  datatype Notice = WelcomeSent(address: string) | NoEmails | EmailSent

  datatype Event =
    | RefreshCall                       // creds.refresh(Request())
    | ConsentFlow(scopes: seq<string>)  // interactive consent started with these scopes
    | AddressLookup                     // getProfile() for the user's address
    | ConnectionTest                    // getProfile() to test the new service
    | SendCall(raw: Raw)                // users.messages.send(body={'raw': ...})
    | ErrorBox(failure: Failure)        // messagebox.showerror
    | InfoBox(notice: Notice)           // messagebox.showinfo
    | ContentWindow(body: string)       // the Toplevel showing a message body
    | Quit                              // root.quit()
    | Crash                             // an uncaught exception: it ends __init__, or Tk's
                                        // callback wrapper prints it and the window stays

  /** One line of the inbox Treeview: iid and the values (From, Subject, Date). */
  datatype Row = Row(id: MsgId, sender: string, subject: string, date: string)

  /** The state of a GmailApp and of the token file it owns. */
  datatype AppState = AppState(token: TokenFile, service: Option<Credential>, rows: seq<Row>, events: seq<Event>)

  /** `r` is a later state of `s`: its events continue those of `s`. */
  predicate Extends(s: AppState, r: AppState)
  {
    |s.events| <= |r.events| && r.events[..|s.events|] == s.events
  }

  /** The events that happened between `s` and `r`. */
  function Since(s: AppState, r: AppState): seq<Event>
    requires Extends(s, r)
  {
    r.events[|s.events|..]
  }

  /** The state `s` after the events `evs` happened. */
  function Note(s: AppState, evs: seq<Event>): (r: AppState)
    ensures r.events == s.events + evs
    ensures r.token == s.token && r.service == s.service && r.rows == s.rows
  {
    s.(events := s.events + evs)
  }

  // ---------------------------------------------------------------------------
  // The inbox table

  predicate HasRow(rows: seq<Row>, id: MsgId)
  {
    exists k :: 0 <= k < |rows| && rows[k].id == id
  }

  predicate UniqueIds(rows: seq<Row>)
  {
    forall j, k :: 0 <= j < k < |rows| ==> rows[j].id != rows[k].id
  }

  /** tree.insert('', END, values=..., iid=id): Tk refuses an iid that is
      already in the table (the call raises); otherwise the row goes last. */
  function Insert(rows: seq<Row>, row: Row): (r: Option<seq<Row>>)
    ensures r.Some? <==> !HasRow(rows, row.id)
    ensures r.Some? ==> r.value == rows + [row]
    ensures r.Some? && UniqueIds(rows) ==> UniqueIds(r.value)
  {
    if HasRow(rows, row.id) then None else Some(rows + [row])
  }

  // ---------------------------------------------------------------------------
  // Header lookup and the date column

  const NoSubject := "No Subject"
  const NoSender := "No Sender"
  const NoDate := "No Date"
  const InvalidDate := "Invalid Date"

  /** `next(h['value'] for h in headers if h['name'] == name)`: the value of
      the first header whose name is exactly `name`. */
  function Lookup(headers: seq<Header>, name: string): (r: Option<string>)
    ensures r.None? <==> forall i :: 0 <= i < |headers| ==> headers[i].name != name
    ensures r.Some? ==> exists i :: 0 <= i < |headers| && headers[i] == Header(name, r.value)
                                    && forall j :: 0 <= j < i ==> headers[j].name != name
  {
    if headers == [] then None
    else if headers[0].name == name then Some(headers[0].value)
    else
      var r := Lookup(headers[1..], name);
      if r.Some? then
        ghost var i :| 0 <= i < |headers[1..]| && headers[1..][i] == Header(name, r.value)
                       && forall j :: 0 <= j < i ==> headers[1..][j].name != name;
        assert headers[i + 1] == Header(name, r.value);
        r
      else r
  }

  /** `next(..., fallback)`: the value of the first header named exactly
      `name`, or the fallback when there is none. */
  function LookupOr(headers: seq<Header>, name: string, fallback: string): (r: string)
    ensures (forall i :: 0 <= i < |headers| ==> headers[i].name != name) ==> r == fallback
    ensures forall i :: (&& 0 <= i < |headers| && headers[i].name == name
                         && forall j :: 0 <= j < i ==> headers[j].name != name) ==> r == headers[i].value
  {
    match Lookup(headers, name)
    case Some(v) => v
    case None => fallback
  }

  /** parsedate_to_datetime(value).strftime('%Y-%m-%d %H:%M'); None when
      either raises. */
  type DateFormatter = string -> Option<string>

  /** The library fact the date column relies on: the placeholder does not parse. */
  predicate RejectsPlaceholder(format: DateFormatter)
  {
    format(NoDate).None?
  }

  /** The date column of auto.py: the formatted date, or "Invalid Date". */
  function DateColumn(value: string, format: DateFormatter): (r: string)
    ensures format(value).None? ==> r == InvalidDate
    ensures format(value).Some? ==> r == format(value).value
    ensures r == InvalidDate || format(value) == Some(r)
  {
    match format(value)
    case Some(d) => d
    case None => InvalidDate
  }

  /** The row auto.py builds: each column falls back instead of failing. */
  function LenientRow(id: MsgId, headers: seq<Header>, format: DateFormatter): (r: Row)
    ensures r.id == id
    ensures r.sender == NoSender || exists i :: 0 <= i < |headers| && headers[i] == Header("From", r.sender)
    ensures r.subject == NoSubject || exists i :: 0 <= i < |headers| && headers[i] == Header("Subject", r.subject)
    ensures || r.date == InvalidDate || format(NoDate) == Some(r.date)
            || exists i :: 0 <= i < |headers| && headers[i].name == "Date" && format(headers[i].value) == Some(r.date)
  {
    Row(id, LookupOr(headers, "From", NoSender), LookupOr(headers, "Subject", NoSubject),
        DateColumn(LookupOr(headers, "Date", NoDate), format))
  }

  /** The row test.py and index.py build: a missing header (StopIteration) or
      an unparseable date (the formatter raises) gives no row. */
  function StrictRow(id: MsgId, headers: seq<Header>, format: DateFormatter): (r: Option<Row>)
    ensures r.Some? <==> && Lookup(headers, "Subject").Some?
                         && Lookup(headers, "From").Some?
                         && Lookup(headers, "Date").Some?
                         && format(Lookup(headers, "Date").value).Some?
    ensures r.Some? ==> r.value == LenientRow(id, headers, format)
  {
    var subject := Lookup(headers, "Subject");
    var sender := Lookup(headers, "From");
    var date := Lookup(headers, "Date");
    if subject.None? || sender.None? || date.None? then None
    else
      match format(date.value)
      case None => None
      case Some(d) => Some(Row(id, sender.value, subject.value, d))
  }

  /** Each column of auto.py's row comes from the first header with exactly
      that name, or is the fallback; the date is "Invalid Date" whenever the
      value cannot be formatted, the missing-header placeholder included. */
  lemma LenientRowColumns(id: MsgId, headers: seq<Header>, format: DateFormatter)
    requires RejectsPlaceholder(format)
    ensures var r := LenientRow(id, headers, format);
      && r.id == id
      && (Lookup(headers, "Subject").None? ==> r.subject == NoSubject)
      && (Lookup(headers, "Subject").Some? ==> r.subject == Lookup(headers, "Subject").value)
      && (Lookup(headers, "From").None? ==> r.sender == NoSender)
      && (Lookup(headers, "From").Some? ==> r.sender == Lookup(headers, "From").value)
      && (Lookup(headers, "Date").None? ==> r.date == InvalidDate)
      && (Lookup(headers, "Date").Some? ==>
            r.date == if format(Lookup(headers, "Date").value).Some?
                      then format(Lookup(headers, "Date").value).value else InvalidDate)
  {
  }

  /** Names are compared exactly: whatever else a message carries, a
      lower-case "subject" header is invisible to the lookup of "Subject"
      (and so to the Subject column), though a lookup of "subject" finds it. */
  lemma LookupIsCaseSensitive(headers: seq<Header>, v: string, id: MsgId, format: DateFormatter)
    ensures Lookup([Header("subject", v)] + headers, "Subject") == Lookup(headers, "Subject")
    ensures Lookup([Header("subject", v)] + headers, "subject") == Some(v)
    ensures LenientRow(id, [Header("subject", v)] + headers, format).subject == LenientRow(id, headers, format).subject
  {
    var hs := [Header("subject", v)] + headers;
    assert "subject"[0] != "Subject"[0];
    assert hs[1..] == headers;
  }

  // ---------------------------------------------------------------------------
  // Body selection (show_email_content)

  const TextPlain := "text/plain"
  const NoTextContent := "No text content available"

  /** urlsafe_b64decode(data).decode('utf-8'); None when either raises. */
  type Decoder = string -> Option<string>

  /** A child the body loop stops at: mimeType exactly text/plain, with data. */
  predicate Eligible(p: Part)
  {
    p.mimeType == TextPlain && p.data.Some?
  }

  /** The index of the first eligible direct child, if any. */
  function FirstEligible(parts: seq<Part>): (r: Option<nat>)
    ensures r.Some? ==> r.value < |parts| && Eligible(parts[r.value])
    ensures r.Some? ==> forall j :: 0 <= j < r.value ==> !Eligible(parts[j])
    ensures r.None? <==> forall j :: 0 <= j < |parts| ==> !Eligible(parts[j])
  {
    if parts == [] then None
    else if Eligible(parts[0]) then Some(0)
    else
      match FirstEligible(parts[1..])
      case None => None
      case Some(i) => Some(i + 1)
  }

  /** The body show_email_content displays; None when decoding raises. A
      multipart payload gives the first eligible child's text, or "" when
      there is none; a single-part payload gives its own data, or the
      "No text content available" notice. Grandchildren are never looked at. */
  function BodyOf(payload: Payload, decode: Decoder): (r: Option<string>)
    ensures payload.parts.Some? ==>
      var parts := payload.parts.value;
      && ((forall j :: 0 <= j < |parts| ==> !Eligible(parts[j])) ==> r == Some(""))
      && (forall i :: 0 <= i < |parts| && Eligible(parts[i]) && (forall j :: 0 <= j < i ==> !Eligible(parts[j])) ==>
            r == decode(parts[i].data.value))
    ensures payload.parts.None? && payload.data.None? ==> r == Some(NoTextContent)
    ensures payload.parts.None? && payload.data.Some? ==> r == decode(payload.data.value)
  {
    FirstEligibleIsFirst(payload);
    match payload.parts
    case Some(parts) =>
      (match FirstEligible(parts)
       case None => Some("")
       case Some(i) => decode(parts[i].data.value))
    case None =>
      (match payload.data
       case None => Some(NoTextContent)
       case Some(d) => decode(d))
  }

  /** The body loop of show_email_content: scan the parts in order and stop
      at the first text/plain child that carries data. */
  method ExtractBody(payload: Payload, decode: Decoder) returns (body: Option<string>)
    ensures body == BodyOf(payload, decode)
  {
    if payload.parts.Some? {
      var parts := payload.parts.value;
      body := Some("");
      var i := 0;
      while i < |parts|
        invariant 0 <= i <= |parts|
        invariant forall j :: 0 <= j < i ==> !Eligible(parts[j])
      {
        if parts[i].mimeType == TextPlain && parts[i].data.Some? {
          body := decode(parts[i].data.value);
          return;
        }
        i := i + 1;
      }
    } else if payload.data.Some? {
      body := decode(payload.data.value);
    } else {
      body := Some(NoTextContent);
    }
  }

  /** Among several children, the body is that of the only eligible one,
      wherever it stands. */
  lemma SoleEligibleChosen(headers: seq<Header>, parts: seq<Part>, k: nat, decode: Decoder)
    requires k < |parts| && Eligible(parts[k])
    requires forall j :: 0 <= j < |parts| && j != k ==> !Eligible(parts[j])
    ensures BodyOf(Payload(headers, Some(parts), None), decode) == decode(parts[k].data.value)
  {
  }

  /** Adding a child that is not eligible, anywhere among the siblings,
      does not change the body. */
  lemma {:induction false} IneligibleSiblingIrrelevant(parts: seq<Part>, k: nat, p: Part)
    requires k <= |parts| && !Eligible(p)
    ensures var grown := parts[..k] + [p] + parts[k..];
      && (FirstEligible(parts).None? <==> FirstEligible(grown).None?)
      && (FirstEligible(parts).Some? ==>
            grown[FirstEligible(grown).value] == parts[FirstEligible(parts).value])
  {
    var grown := parts[..k] + [p] + parts[k..];
    GrownAt(parts, k, p);
    if FirstEligible(parts).Some? {
      var i := FirstEligible(parts).value;
      var i' := if i < k then i else i + 1;
      assert grown[i'] == parts[i];
      assert forall j :: 0 <= j < i' ==> !Eligible(grown[j]);
      FirstIs(grown, i');
    }
  }

  /** Where each child of `parts` stands once `p` is put at position `k`. */
  lemma GrownAt(parts: seq<Part>, k: nat, p: Part)
    requires k <= |parts|
    ensures var grown := parts[..k] + [p] + parts[k..];
      && |grown| == |parts| + 1 && grown[k] == p
      && (forall j :: 0 <= j < k ==> grown[j] == parts[j])
      && (forall j :: k < j < |grown| ==> grown[j] == parts[j - 1])
  {
  }

  /** The event show_email_content produces for message `id`. Without a
      service, or when the get call raises, the error box. A multipart
      message shows its first direct child that is text/plain with data,
      decoded, or "" when there is no such child; a single-part message
      shows its own data decoded, or the "No text content available"
      notice. Decoding that raises gives the error box. */
  function ContentEvent(service: Option<Credential>, gmail: Gmail, id: MsgId, decode: Decoder): (e: Event)
    ensures service.None? || gmail.get(id).None? ==> e == ErrorBox(ContentFailed)
    ensures service.Some? && gmail.get(id).Some? && gmail.get(id).value.parts.Some? ==>
      var parts := gmail.get(id).value.parts.value;
      && ((forall j :: 0 <= j < |parts| ==> !Eligible(parts[j])) ==> e == ContentWindow(""))
      && (forall i :: 0 <= i < |parts| && Eligible(parts[i]) && (forall j :: 0 <= j < i ==> !Eligible(parts[j])) ==>
            e == match decode(parts[i].data.value)
                 case Some(b) => ContentWindow(b)
                 case None => ErrorBox(ContentFailed))
    ensures service.Some? && gmail.get(id).Some? && gmail.get(id).value.parts.None? ==>
      var data := gmail.get(id).value.data;
      && (data.None? ==> e == ContentWindow(NoTextContent))
      && (data.Some? ==> e == match decode(data.value)
                              case Some(b) => ContentWindow(b)
                              case None => ErrorBox(ContentFailed))
  {
    if service.None? then ErrorBox(ContentFailed)
    else
      match gmail.get(id)
      case None => ErrorBox(ContentFailed)
      case Some(p) =>
        FirstEligibleIsFirst(p);
        match BodyOf(p, decode)
        case None => ErrorBox(ContentFailed)
        case Some(b) => ContentWindow(b)
  }

  /** A child that is eligible and has no eligible child before it is the
      one FirstEligible finds. */
  lemma FirstEligibleIsFirst(p: Payload)
    ensures p.parts.Some? ==> forall i :: 0 <= i < |p.parts.value| && Eligible(p.parts.value[i])
                                       && (forall j :: 0 <= j < i ==> !Eligible(p.parts.value[j]))
                                       ==> FirstEligible(p.parts.value) == Some(i)
  {
    if p.parts.Some? {
      forall i | 0 <= i < |p.parts.value| && Eligible(p.parts.value[i])
                 && (forall j :: 0 <= j < i ==> !Eligible(p.parts.value[j]))
        ensures FirstEligible(p.parts.value) == Some(i)
      {
        FirstIs(p.parts.value, i);
      }
    }
  }

  lemma FirstIs(parts: seq<Part>, i: nat)
    requires i < |parts| && Eligible(parts[i])
    requires forall j :: 0 <= j < i ==> !Eligible(parts[j])
    ensures FirstEligible(parts) == Some(i)
  {
  }
}

=== FILE: snapshot.dfy ===
/** fetch_emails: rebuilding the inbox table from users.messages.list and one
    users.messages.get per listed message. automation/auto.py isolates a
    failing message and carries on (LenientRows); test.py and index.py stop
    at the first failing message (StrictRows). Both clear the table first. */
module Snapshot {
  import opened MailCore

  predicate Distinct(ids: seq<MsgId>)
  {
    forall j, k :: 0 <= j < k < |ids| ==> ids[j] != ids[k]
  }

  lemma HasRowAppend(rows: seq<Row>, row: Row, id: MsgId)
    ensures HasRow(rows + [row], id) <==> HasRow(rows, id) || row.id == id
  {
    if HasRow(rows, id) {
      var k :| 0 <= k < |rows| && rows[k].id == id;
      assert (rows + [row])[k].id == id;
    }
    if row.id == id {
      assert (rows + [row])[|rows|].id == id;
    }
    if HasRow(rows + [row], id) {
      var k :| 0 <= k < |rows + [row]| && (rows + [row])[k].id == id;
      if k < |rows| { assert rows[k].id == id; }
    }
  }

  /** The listed ids without the last one. */
  function Init(ids: seq<MsgId>): seq<MsgId>
    requires ids != []
  {
    ids[..|ids| - 1]
  }

  function Last(ids: seq<MsgId>): MsgId
    requires ids != []
  {
    ids[|ids| - 1]
  }

  // ---------------------------------------------------------------------------
  // automation/auto.py: per-message isolation

  /** One turn of auto.py's loop: a message whose get raises, or whose iid
      is already in the table, is skipped; otherwise its row goes last. */
  function LenientStep(rows: seq<Row>, id: MsgId, gmail: Gmail, format: DateFormatter): (r: seq<Row>)
    ensures gmail.get(id).None? || HasRow(rows, id) ==> r == rows
    ensures gmail.get(id).Some? && !HasRow(rows, id) ==>
      && |r| == |rows| + 1 && r[..|rows|] == rows
      && r[|rows|] == LenientRow(id, gmail.get(id).value.headers, format)
  {
    match gmail.get(id)
    case None => rows
    case Some(p) =>
      match Insert(rows, LenientRow(id, p.headers, format))
      case None => rows
      case Some(r) => r
  }

  /** The table after auto.py's loop has run over `ids` from an empty table. */
  function LenientRows(ids: seq<MsgId>, gmail: Gmail, format: DateFormatter): (rows: seq<Row>)
    ensures forall k :: 0 <= k < |rows| ==> rows[k].id in ids && gmail.get(rows[k].id).Some?
    decreases |ids|
  {
    if ids == [] then []
    else LenientStep(LenientRows(Init(ids), gmail, format), Last(ids), gmail, format)
  }

  /** The row one listed message contributes to the reference table: its
      row when its get succeeds, nothing otherwise. */
  function KeptRow(id: MsgId, gmail: Gmail, format: DateFormatter): seq<Row>
  {
    if gmail.get(id).Some? then [LenientRow(id, gmail.get(id).value.headers, format)] else []
  }

  /** Reference definition: one row per listed message whose get succeeds,
      in list order. */
  function Kept(ids: seq<MsgId>, gmail: Gmail, format: DateFormatter): seq<Row>
  {
    if ids == [] then [] else KeptRow(ids[0], gmail, format) + Kept(ids[1..], gmail, format)
  }

  lemma {:induction false} KeptAppend(ids: seq<MsgId>, id: MsgId, gmail: Gmail, format: DateFormatter)
    ensures Kept(ids + [id], gmail, format) == Kept(ids, gmail, format) + KeptRow(id, gmail, format)
  {
    var xs := ids + [id];
    assert xs[0] == if ids == [] then id else ids[0];
    if ids == [] {
      assert xs[1..] == [];
    } else {
      assert xs[1..] == ids[1..] + [id];
      KeptAppend(ids[1..], id, gmail, format);
    }
  }

  /** The table never holds two rows with the same iid. */
  lemma {:induction false} LenientRowsUnique(ids: seq<MsgId>, gmail: Gmail, format: DateFormatter)
    ensures UniqueIds(LenientRows(ids, gmail, format))
  {
    if ids != [] {
      LenientRowsUnique(Init(ids), gmail, format);
    }
  }

  /** A message has a row exactly when it was listed and its get succeeded. */
  lemma {:induction false} LenientRowsExactly(ids: seq<MsgId>, gmail: Gmail, format: DateFormatter, id: MsgId)
    ensures HasRow(LenientRows(ids, gmail, format), id) <==> id in ids && gmail.get(id).Some?
  {
    if ids != [] {
      var rows := LenientRows(Init(ids), gmail, format);
      LenientRowsExactly(Init(ids), gmail, format, id);
      assert ids == Init(ids) + [Last(ids)];
      var last := Last(ids);
      if gmail.get(last).Some? {
        HasRowAppend(rows, LenientRow(last, gmail.get(last).value.headers, format), id);
      }
    }
  }

  /** Listed messages with distinct ids: the rows are those of the messages
      whose get succeeds, one each, in list order. */
  lemma {:induction false} LenientRowsInListOrder(ids: seq<MsgId>, gmail: Gmail, format: DateFormatter)
    requires Distinct(ids)
    ensures LenientRows(ids, gmail, format) == Kept(ids, gmail, format)
  {
    if ids != [] {
      var init, last := Init(ids), Last(ids);
      assert ids == init + [last];
      LenientRowsInListOrder(init, gmail, format);
      LenientRowsExactly(init, gmail, format, last);
      assert last !in init;
      KeptAppend(init, last, gmail, format);
    }
  }

  /** One row at most per listed message. */
  lemma {:induction false} LenientRowsAtMost(ids: seq<MsgId>, gmail: Gmail, format: DateFormatter)
    ensures |LenientRows(ids, gmail, format)| <= |ids|
  {
    if ids != [] {
      LenientRowsAtMost(Init(ids), gmail, format);
    }
  }

  // ---------------------------------------------------------------------------
  // test.py and index.py: the first failure ends the loop

  datatype Progress = Progress(rows: seq<Row>, aborted: bool)

  /** The row for one message, or None when its get raises, a header is
      missing or its date does not parse. */
  function StrictMessageRow(id: MsgId, gmail: Gmail, format: DateFormatter): (r: Option<Row>)
    ensures r.Some? ==> r.value.id == id
  {
    match gmail.get(id)
    case None => None
    case Some(p) => StrictRow(id, p.headers, format)
  }

  /** One turn of the strict loop; None when the turn raises (the insert of
      an iid already present raises too). */
  function StrictStep(rows: seq<Row>, id: MsgId, gmail: Gmail, format: DateFormatter): (r: Option<seq<Row>>)
    ensures r.Some? <==> StrictMessageRow(id, gmail, format).Some? && !HasRow(rows, id)
    ensures r.Some? ==> |r.value| == |rows| + 1 && r.value[..|rows|] == rows && r.value[|rows|].id == id
  {
    match StrictMessageRow(id, gmail, format)
    case None => None
    case Some(row) => Insert(rows, row)
  }

  /** The table after the strict loop over `ids`, and whether it was cut short. */
  function StrictRows(ids: seq<MsgId>, gmail: Gmail, format: DateFormatter): (p: Progress)
    ensures |p.rows| <= |ids| && (p.aborted ==> |p.rows| < |ids|)
    decreases |ids|
  {
    if ids == [] then Progress([], false)
    else
      var p := StrictRows(Init(ids), gmail, format);
      if p.aborted then p
      else
        match StrictStep(p.rows, Last(ids), gmail, format)
        case None => Progress(p.rows, true)
        case Some(r) => Progress(r, false)
  }

  /** The strict table never holds an iid twice: Tk refuses a repeated iid,
      and that ends the loop. */
  lemma {:induction false} StrictRowsUnique(ids: seq<MsgId>, gmail: Gmail, format: DateFormatter)
    ensures UniqueIds(StrictRows(ids, gmail, format).rows)
  {
    if ids != [] {
      StrictRowsUnique(Init(ids), gmail, format);
    }
  }

  /** Once the loop has been cut short, later messages change nothing. */
  lemma {:induction false} StrictAbortIsFinal(ids: seq<MsgId>, i: nat, gmail: Gmail, format: DateFormatter)
    requires i <= |ids| && StrictRows(ids[..i], gmail, format).aborted
    ensures StrictRows(ids, gmail, format) == StrictRows(ids[..i], gmail, format)
  {
    if i < |ids| {
      assert Init(ids)[..i] == ids[..i];
      StrictAbortIsFinal(Init(ids), i, gmail, format);
    } else {
      assert ids[..i] == ids;
    }
  }

  /** The rows of `p` are those of the first |rows| messages of `ids`, in
      list order, and `p` was cut short exactly when some message has no
      row, the first such message being the one whose turn failed. */
  predicate FollowsIds(ids: seq<MsgId>, p: Progress, gmail: Gmail, format: DateFormatter)
  {
    && |p.rows| <= |ids|
    && (forall j :: 0 <= j < |p.rows| ==> p.rows[j].id == ids[j] && StrictMessageRow(ids[j], gmail, format) == Some(p.rows[j]))
    && (p.aborted <==> |p.rows| < |ids|)
    && (p.aborted ==> StrictStep(p.rows, ids[|p.rows|], gmail, format).None?)
  }

  /** The rows are those of the first |rows| listed messages, in list order;
      the loop was cut short exactly when some message has no row, and then
      the first such message is the one whose turn failed. */
  lemma {:induction false} StrictRowsArePrefix(ids: seq<MsgId>, gmail: Gmail, format: DateFormatter)
    ensures var p := StrictRows(ids, gmail, format);
      && |p.rows| <= |ids|
      && (forall j :: 0 <= j < |p.rows| ==> p.rows[j].id == ids[j] && StrictMessageRow(ids[j], gmail, format) == Some(p.rows[j]))
      && (p.aborted <==> |p.rows| < |ids|)
      && (p.aborted ==> StrictStep(p.rows, ids[|p.rows|], gmail, format).None?)
  {
    if ids != [] {
      StrictRowsArePrefix(Init(ids), gmail, format);
      if StrictRows(Init(ids), gmail, format).aborted {
        FollowsIdsAborted(ids, gmail, format);
      } else {
        FollowsIdsStep(ids, gmail, format);
      }
    }
  }

  /** A loop already cut short before the last message stays as it was. */
  lemma FollowsIdsAborted(ids: seq<MsgId>, gmail: Gmail, format: DateFormatter)
    requires ids != [] && StrictRows(Init(ids), gmail, format).aborted
    requires FollowsIds(Init(ids), StrictRows(Init(ids), gmail, format), gmail, format)
    ensures FollowsIds(ids, StrictRows(ids, gmail, format), gmail, format)
  {
    var p := StrictRows(Init(ids), gmail, format);
    assert StrictRows(ids, gmail, format) == p;
    assert forall j :: 0 <= j < |Init(ids)| ==> ids[j] == Init(ids)[j];
  }

  /** The turn of the last message either adds its row or cuts the loop
      short at that message. */
  lemma FollowsIdsStep(ids: seq<MsgId>, gmail: Gmail, format: DateFormatter)
    requires ids != [] && !StrictRows(Init(ids), gmail, format).aborted
    requires FollowsIds(Init(ids), StrictRows(Init(ids), gmail, format), gmail, format)
    ensures FollowsIds(ids, StrictRows(ids, gmail, format), gmail, format)
  {
    var rows := StrictRows(Init(ids), gmail, format).rows;
    if StrictStep(rows, Last(ids), gmail, format).None? {
      assert StrictRows(ids, gmail, format) == Progress(rows, true);
      FollowsIdsCut(ids, rows, gmail, format);
    } else {
      var row := StrictMessageRow(Last(ids), gmail, format).value;
      assert StrictRows(ids, gmail, format) == Progress(rows + [row], false);
      FollowsIdsAppend(ids, rows, row, gmail, format);
    }
  }

  /** A failing turn for the last listed message cuts the loop short there. */
  lemma FollowsIdsCut(ids: seq<MsgId>, rows: seq<Row>, gmail: Gmail, format: DateFormatter)
    requires ids != [] && FollowsIds(Init(ids), Progress(rows, false), gmail, format)
    requires StrictStep(rows, Last(ids), gmail, format).None?
    ensures FollowsIds(ids, Progress(rows, true), gmail, format)
  {
    assert ids[|rows|] == Last(ids);
    forall j | 0 <= j < |rows|
      ensures rows[j].id == ids[j] && StrictMessageRow(ids[j], gmail, format) == Some(rows[j])
    {
      assert ids[j] == Init(ids)[j];
    }
  }

  /** A successful turn for the last listed message puts its row last. */
  lemma FollowsIdsAppend(ids: seq<MsgId>, rows: seq<Row>, row: Row, gmail: Gmail, format: DateFormatter)
    requires ids != [] && FollowsIds(Init(ids), Progress(rows, false), gmail, format)
    requires StrictMessageRow(Last(ids), gmail, format) == Some(row)
    ensures FollowsIds(ids, Progress(rows + [row], false), gmail, format)
  {
    var rows' := rows + [row];
    assert |rows| == |ids| - 1 && rows'[|rows|] == row && ids[|rows|] == Last(ids);
    forall j | 0 <= j < |rows|
      ensures rows'[j].id == ids[j] && StrictMessageRow(ids[j], gmail, format) == Some(rows'[j])
    {
      assert rows'[j] == rows[j] && ids[j] == Init(ids)[j];
    }
  }

  /** When no message fails, the strict loop builds the same table as
      auto.py's lenient loop. */
  lemma {:induction false} StrictMatchesLenient(ids: seq<MsgId>, gmail: Gmail, format: DateFormatter)
    requires !StrictRows(ids, gmail, format).aborted
    ensures StrictRows(ids, gmail, format).rows == LenientRows(ids, gmail, format)
  {
    if ids != [] {
      StrictMatchesLenient(Init(ids), gmail, format);
    }
  }

  // ---------------------------------------------------------------------------
  // The whole of fetch_emails, on the application state

  /** users.messages.list(userId='me', maxResults=10, labelIds=['INBOX']);
      without a service the call raises. */
  function Listing(service: Option<Credential>, gmail: Gmail): (r: Option<seq<MsgId>>)
    ensures service.None? ==> r.None?
    ensures service.Some? ==> r == gmail.list(ListQuery(["INBOX"], 10))
    ensures r.Some? ==> gmail.list(ListQuery(["INBOX"], 10)) == r
    ensures r.Some? && HonoursLimit(gmail) ==> |r.value| <= 10
  {
    if service.None? then None else gmail.list(InboxQuery)
  }

  /** automation/auto.py: the table is cleared; a failing list is reported,
      an empty one gets an informational notice; otherwise the lenient loop. */
  function AutoFetch(s: AppState, gmail: Gmail, format: DateFormatter): (r: AppState)
    ensures Extends(s, r) && r.token == s.token && r.service == s.service && UniqueIds(r.rows)
    ensures Since(s, r) == [] || Since(s, r) == [ErrorBox(FetchFailed)] || Since(s, r) == [InfoBox(NoEmails)]
  {
    match Listing(s.service, gmail)
    case None => Note(s.(rows := []), [ErrorBox(FetchFailed)])
    case Some(ids) =>
      if ids == [] then Note(s.(rows := []), [InfoBox(NoEmails)])
      else
        LenientRowsUnique(ids, gmail, format);
        s.(rows := LenientRows(ids, gmail, format))
  }

  /** test.py and index.py: the table is cleared; a failing list or a
      failing message is reported once; an empty list is silent. */
  function StrictFetch(s: AppState, gmail: Gmail, format: DateFormatter): (r: AppState)
    ensures Extends(s, r) && r.token == s.token && r.service == s.service
    ensures Since(s, r) == [] || Since(s, r) == [ErrorBox(FetchFailed)]
  {
    match Listing(s.service, gmail)
    case None => Note(s.(rows := []), [ErrorBox(FetchFailed)])
    case Some(ids) =>
      var p := StrictRows(ids, gmail, format);
      Note(s.(rows := p.rows), if p.aborted then [ErrorBox(FetchFailed)] else [])
  }

  /** auto.py's table after a refresh: only rows of this fetch, no iid twice,
      a row exactly for each listed message whose get succeeded, at most 10
      rows when Gmail honours maxResults; a failed or empty list leaves the
      table empty with an error box or the "no emails" notice. */
  lemma AutoFetchSnapshot(s: AppState, gmail: Gmail, format: DateFormatter, id: MsgId)
    ensures var r := AutoFetch(s, gmail, format);
      && r.token == s.token && r.service == s.service
      && UniqueIds(r.rows)
      && (HasRow(r.rows, id) <==> Listing(s.service, gmail).Some? && id in Listing(s.service, gmail).value && gmail.get(id).Some?)
      && (HonoursLimit(gmail) ==> |r.rows| <= InboxQuery.maxResults)
      && (Listing(s.service, gmail).None? ==> r.rows == [] && r.events == s.events + [ErrorBox(FetchFailed)])
      && (Listing(s.service, gmail) == Some([]) ==> r.rows == [] && r.events == s.events + [InfoBox(NoEmails)])
      && (Listing(s.service, gmail).Some? && Listing(s.service, gmail).value != [] ==> r.events == s.events)
  {
    match Listing(s.service, gmail)
    case None =>
    case Some(ids) =>
      LenientRowsUnique(ids, gmail, format);
      LenientRowsExactly(ids, gmail, format, id);
      LenientRowsAtMost(ids, gmail, format);
      assert HonoursLimit(gmail) ==> |ids| <= InboxQuery.maxResults;
  }

  /** test.py and index.py's table after a refresh: cleared before the list
      request, so a failed request leaves it empty; otherwise the rows of the
      listed messages up to the first failure, in list order, at most 10
      when Gmail honours maxResults, with one error box exactly when the loop
      was cut short. */
  lemma StrictFetchSnapshot(s: AppState, gmail: Gmail, format: DateFormatter)
    ensures var r := StrictFetch(s, gmail, format);
      && r.token == s.token && r.service == s.service
      && UniqueIds(r.rows)
      && (Listing(s.service, gmail).None? ==> r.rows == [] && r.events == s.events + [ErrorBox(FetchFailed)])
      && (Listing(s.service, gmail).Some? ==>
            var ids := Listing(s.service, gmail).value;
            && |r.rows| <= |ids|
            && (forall j :: 0 <= j < |r.rows| ==> StrictMessageRow(ids[j], gmail, format) == Some(r.rows[j]))
            && (r.events == s.events <==> |r.rows| == |ids|)
            && (|r.rows| < |ids| ==> r.events == s.events + [ErrorBox(FetchFailed)]))
      && (HonoursLimit(gmail) ==> |r.rows| <= InboxQuery.maxResults)
  {
    match Listing(s.service, gmail)
    case None =>
    case Some(ids) =>
      StrictRowsArePrefix(ids, gmail, format);
      StrictRowsUnique(ids, gmail, format);
      assert HonoursLimit(gmail) ==> |ids| <= InboxQuery.maxResults;
  }
}

=== FILE: strict_session.dfy ===
/** authenticate as test.py and index.py run it: the credential decision of
    Credentials.StrictAuth followed by the strict fetch of Snapshot. Nothing
    is caught, so an exception ends authenticate, and with it __init__,
    before the inbox is ever listed. */
module StrictSession {
  import opened MailCore
  import opened Snapshot
  import opened Credentials

  /** authenticate of test.py and index.py with the given scopes. */
  function StrictAuthenticate(s: AppState, env: AuthEnv, gmail: Gmail, format: DateFormatter,
                              scopes: seq<string>): (r: AppState)
    ensures Extends(s, r)
  {
    var a := StrictAuth(s, env, scopes);
    if a.proceed then
      var r := StrictFetch(a.state, gmail, format);
      SinceChain(s, a.state, r);
      r
    else a.state
  }

  /** authenticate either raises, with the exception as the last thing that
      happens and the table untouched, or reaches fetch_emails with a
      service built from a credential that is now saved or was
      valid already; it never shows an error box of its own. */
  lemma StrictAuthenticateOutcome(s: AppState, env: AuthEnv, gmail: Gmail, format: DateFormatter,
                                  scopes: seq<string>)
    ensures var a := StrictAuth(s, env, scopes);
      var r := StrictAuthenticate(s, env, gmail, format, scopes);
      && (!a.proceed ==> && r.rows == s.rows && r.service == s.service
                         && |Since(s, r)| > 0 && Since(s, r)[|Since(s, r)| - 1] == Crash)
      && (a.proceed ==> && Crash !in Since(s, r)
                        && r.service.Some?
                        && (r.token == s.token || r.token == Stored(r.service.value))
                        && (forall e :: e in Since(s, a.state) ==> !e.ErrorBox?))
  {
    var a := StrictAuth(s, env, scopes);
    StrictAuthShape(s, env, scopes);
    if a.proceed {
      SinceChain(s, a.state, StrictFetch(a.state, gmail, format));
    }
  }

  /** The credential decision of test.py and index.py leaves the table alone
      and records only the refresh call, the consent flow and the escaping
      exception; it reaches fetch_emails with a service and a token that is
      either untouched or holds that service's credential, and otherwise
      ends with the exception. */
  lemma StrictAuthShape(s: AppState, env: AuthEnv, scopes: seq<string>)
    ensures var a := StrictAuth(s, env, scopes);
      var evs := Since(s, a.state);
      && a.state.rows == s.rows
      && (forall e :: e in evs ==> e == RefreshCall || e == ConsentFlow(scopes) || e == Crash)
      && (a.proceed ==> && Crash !in evs && a.state.service.Some?
                        && (a.state.token == s.token || a.state.token == Stored(a.state.service.value)))
      && (!a.proceed ==> |evs| > 0 && evs[|evs| - 1] == Crash && a.state.service == s.service)
  {
    var creds := Loaded(s.token);
    if s.token.Corrupt? || (creds.Some? && creds.value.valid) {
    } else if Refreshable(creds) {
      assert env.refresh(creds.value).None? ==> Since(s, StrictAuth(s, env, scopes).state) == [RefreshCall, Crash];
    } else if env.configPresent {
      assert env.consent(scopes).None? ==> Since(s, StrictAuth(s, env, scopes).state) == [ConsentFlow(scopes), Crash];
    }
  }
}

=== FILE: test_app.dfy ===
/** The GmailApp of test.py: the strict authenticate and fetch_emails, the
    body viewer, and the compose window's send action. */
module TestApp {
  import opened MailCore
  import opened Compose
  import opened Snapshot
  import opened Credentials
  import opened StrictSession

  class GmailApp {
    var token: TokenFile
    var service: Option<Credential>
    var rows: seq<Row>
    var events: seq<Event>

    function State(): AppState
      reads this
    {
      AppState(token, service, rows, events)
    }

    /** __init__: no service yet, an empty table, then authenticate with
        the read and send scopes. */
    constructor (disk: TokenFile, env: AuthEnv, gmail: Gmail, format: DateFormatter)
      ensures State() == StrictAuthenticate(AppState(disk, None, [], []), env, gmail, format, FullScopes)
    {
      token := disk;
      service := None;
      rows := [];
      events := [];
      new;
      Authenticate(env, gmail, format);
    }

    /** authenticate: load the token, refresh it or run the consent flow
        when it is not valid, save it, build the service and fetch; any
        failure along the way raises out of the method. */
    method Authenticate(env: AuthEnv, gmail: Gmail, format: DateFormatter)
      modifies this
      ensures State() == StrictAuthenticate(old(State()), env, gmail, format, FullScopes)
    {
      if token.Corrupt? {
        events := events + [Crash];
        return;
      }
      var creds: Option<Credential> := None;
      if token.Stored? {
        creds := Some(token.cred);
      }
      if creds.None? || !creds.value.valid {
        if Refreshable(creds) {
          events := events + [RefreshCall];
          creds := env.refresh(creds.value);
        } else if env.configPresent {
          events := events + [ConsentFlow(FullScopes)];
          creds := env.consent(FullScopes);
        } else {
          creds := None;
        }
        if creds.None? || !env.saveOk {
          events := events + [Crash];
          return;
        }
        token := Stored(creds.value);
      }
      if !env.buildOk {
        events := events + [Crash];
        return;
      }
      service := creds;
      FetchEmails(gmail, format);
    }

    /** fetch_emails: clear the table, list the inbox, then add the rows in
        list order until the first message that raises; that one is
        reported and ends the loop. */
    method FetchEmails(gmail: Gmail, format: DateFormatter)
      modifies this
      ensures State() == StrictFetch(old(State()), gmail, format)
    {
      rows := [];
      var listing := Listing(service, gmail);
      if listing.None? {
        events := events + [ErrorBox(FetchFailed)];
        return;
      }
      var ids := listing.value;
      var i := 0;
      while i < |ids|
        invariant 0 <= i <= |ids|
        invariant StrictRows(ids[..i], gmail, format) == Progress(rows, false)
        invariant token == old(token) && service == old(service) && events == old(events)
      {
        assert Init(ids[..i + 1]) == ids[..i] && Last(ids[..i + 1]) == ids[i];
        var msg := gmail.get(ids[i]);
        var row := if msg.Some? then StrictRow(ids[i], msg.value.headers, format) else None;
        var inserted := if row.Some? then Insert(rows, row.value) else None;
        if inserted.None? {
          StrictAbortIsFinal(ids, i + 1, gmail, format);
          events := events + [ErrorBox(FetchFailed)];
          return;
        }
        rows := inserted.value;
        i := i + 1;
      }
      assert ids[..|ids|] == ids;
    }

    /** show_email_content for the selected row: nothing selected raises
        outside the handler; otherwise the body window or an error box. */
    method ShowEmailContent(selection: seq<MsgId>, gmail: Gmail, decode: Decoder)
      modifies this
      ensures selection == [] ==> State() == Note(old(State()), [Crash])
      ensures selection != [] ==> State() == Note(old(State()), [ContentEvent(old(service), gmail, selection[0], decode)])
    {
      if selection == [] {
        events := events + [Crash];
        return;
      }
      var id := selection[0];
      if service.None? || gmail.get(id).None? {
        events := events + [ErrorBox(ContentFailed)];
        return;
      }
      var body := ExtractBody(gmail.get(id).value, decode);
      if body.None? {
        events := events + [ErrorBox(ContentFailed)];
      } else {
        events := events + [ContentWindow(body.value)];
      }
    }

    /** send_email on what the compose window holds: the To and Subject
        entries and the text typed into the body, read with Text.get("1.0",
        END), so with Tk's trailing newline. */
    method SendEmail(to: string, subject: string, typed: string, gmail: Gmail)
      modifies this
      ensures State() == SendOutcome(old(State()), to, subject, BodyFieldAsWritten(typed), gmail)
    {
      var body := BodyFieldAsWritten(typed);
      if MissingField(to, subject, body) {
        events := events + [ErrorBox(FieldsRequired)];
        return;
      }
      if service.None? {
        events := events + [ErrorBox(SendFailed)];
        return;
      }
      var raw := Base64Url(ComposeMessage(to, subject, body));
      events := events + [SendCall(raw)];
      if gmail.send(raw).Some? {
        events := events + [InfoBox(EmailSent)];
      } else {
        events := events + [ErrorBox(SendFailed)];
      }
    }
  }
}
